=== FILE: README.md ===
# Expensemate core in Dafny

Expensemate is a React Native expense tracker. A user records income and expense
transactions (amount, category, type, date, description). The app shows them on:

- a dashboard filtered by period (today, this week, this month, this year), with a monthly budget;
- a weekly statistics screen with day-by-day bars and a per-category breakdown;
- a balance summary;
- a searchable, editable transaction list.

Preferences live in a key-value store. They include the owner's email, the budget, a PIN,
the notification switch, the language, the first-launch mark and the profile picture and
name. Several small handlers change that store, and the launch of the app reads it to
choose its first screen.

This project models those computations and transitions as pure Dafny functions and proves
what they guarantee.

**Amounts.** An amount is a `Number`, that is `Option<real>`, where `None` is JavaScript's NaN.
`parseFloat` is modelled on exact reals (`JsNumber.ParseFloat`). NaN propagates through `+`
and `-`, and comparisons with NaN are false. A stored amount of `None` is a `null` in the
table: NaN travels to it as JSON `null`. Every screen sums `parseFloat(t.amount)`, and
`parseFloat(null)` is NaN, so a `null` row enters the totals as NaN.

**Time.** An instant is a whole number of local milliseconds. Days and Monday-start weeks come
from arithmetic on it. Month and year bounds arrive with a reading of the clock
(`Calendar.Clock`).

**Store.** The preference store is a `map<string, string>`. Every handler is a function from
the old store (and the screen's state) to the new one.

Module layout, one file each:

| module | what it holds |
|---|---|
| `Wrappers` | the `Option` datatype |
| `Seqs` | order-preserving `Filter`, `Take`, and the subsequence relation |
| `Text` | `trim`, ASCII `toLowerCase`, `includes` |
| `JsNumber` | `parseFloat`, the `!isNaN` test and the `formatAmount` display |
| `Numbers` | the NaN-aware arithmetic |
| `Calendar` | days, weeks, intervals and the clock |
| `Transactions` | the transaction record and the per-type totals |
| `Prefs` | the preference store |
| `Home` | the dashboard |
| `Statistics` | the weekly bars and the category breakdown |
| `Balance` | the balance summary |
| `TransactionList` | search and edit |
| `AddTransaction` | the add form |
| `Settings` | the settings handlers |
| `Launch` | the start-up route |
| `PinLock` | the PIN screen |
| `Profile` | the profile screen |

Where the code and a natural reading of the app differ, the model follows the code:

- Amounts that do not parse are not skipped. They are summed, so a NaN amount makes the totals it enters NaN. The add form refuses them, but the edit form saves them, as `null`.
- The category breakdown's week ends at Sunday 00:00 (see Findings).

## Model

| member | source | states |
|---|---|---|
| Seqs.Filter | src/screens/HomeScreen.js:66-90 | the result is an order-preserving subsequence; it keeps exactly the elements passing the test |
| Seqs.FilterCounts | src/screens/HomeScreen.js:66-90 | each element passing the test occurs in the result as often as in the list, every other element not at all |
| Seqs.Take | src/screens/HomeScreen.js:244 | `slice(0, n)`: at most n elements, an order-preserving subsequence, all of the list when it is shorter |
| Text.TrimEmptyIffBlank | src/screens/TransactionScreen.js:42 | `query.trim() === ''` holds exactly for strings of white space only |
| Text.Lower | src/screens/TransactionScreen.js:47-48 | lower-casing keeps the length and maps each character on its own |
| Text.LowerConcat | src/screens/TransactionScreen.js:47-48 | lower-casing commutes with concatenation |
| Text.Contains | src/screens/TransactionScreen.js:47-49 | `includes` is true exactly when the text occurs at some position |
| Text.ContainsPrefixOf | src/screens/TransactionScreen.js:47-49 | a string containing `a + b` also contains `a` |
| JsNumber.ParseDigits | src/screens/AddTransactionScreen.js:58 | `parseFloat` reads a signed digit string as the number it denotes |
| JsNumber.ParseNatText | src/screens/HomeScreen.js:55 | `parseFloat(String(n))` is n for every natural n |
| JsNumber.ParseSkipsLeadingSpace | src/screens/SettingsScreen.js:38 | `parseFloat` ignores leading white space |
| JsNumber.PlainDecimalIsNumeric | src/screens/SettingsScreen.js:51 | a plain decimal `a.b` passes the `!isNaN` test |
| JsNumber.DigitsAreNumeric | src/screens/SettingsScreen.js:51 | a non-empty digit string passes the `!isNaN` test |
| JsNumber.DecimalPlaces | src/screens/HomeScreen.js:120-122 | the display uses 0 decimals exactly for whole amounts and 2 otherwise |
| JsNumber.FormatAmountShape | src/screens/BalanceSummaryScreen.js:40-42 | a whole amount is written with no decimal point; any other ends in a point and two digits; a leading `-` appears exactly for negatives |
| JsNumber.FormatAmountRoundTrip | src/screens/HomeScreen.js:120-122 | `parseFloat` of the displayed text of an amount in whole cents gives back that amount |
| Numbers.Plus | src/screens/HomeScreen.js:114 | the sum is a number exactly when both operands are (NaN propagates) |
| Numbers.Minus | src/screens/BalanceSummaryScreen.js:38 | the difference is a number exactly when both operands are |
| Numbers.Or | src/screens/StatisticsScreen.js:89 | JavaScript's logical or on numbers: a truthy first operand, else the second |
| Numbers.SumAll | src/screens/StatisticsScreen.js:97 | `reduce((a, b) => a + b, 0)`: 0 for no values, and a number exactly when every value is |
| Numbers.SumAllBump | src/screens/StatisticsScreen.js:53-55 | adding x to one slot adds x to the sum of all slots |
| Calendar.MondayOf | src/screens/HomeScreen.js:74 | the Monday on or before a day: a Monday, at most six days back |
| Calendar.DaySpan | src/screens/HomeScreen.js:77-81 | an interval of whole days contains an instant exactly when its day is in the range |
| Calendar.WeekOfIff | src/screens/HomeScreen.js:73-76 | `startOfWeek..endOfWeek` of now contains exactly the instants whose Monday is now's Monday |
| Calendar.DayOfAddDays | src/screens/StatisticsScreen.js:49 | `addDays(t, n)` moves the calendar day by exactly n |
| Transactions.Sum | src/screens/HomeScreen.js:114 | the running sum from 0 is a number exactly when no amount is NaN; it is 0 for no transactions |
| Transactions.SumAppend | src/screens/HomeScreen.js:112-118 | the sum of a concatenation is the sum of the sums |
| Transactions.TotalOf | src/screens/HomeScreen.js:112-118 | the total of one type is a number exactly when no transaction of that type is NaN, whatever the others hold |
| Transactions.CountOf | src/screens/BalanceSummaryScreen.js:98 | the count of one type is at most the number of transactions, and 0 exactly when no transaction has that type |
| Transactions.CountOfSnoc | src/screens/BalanceSummaryScreen.js:95-104 | appending a transaction adds 1 to the count of its own type and leaves the other counts unchanged |
| Transactions.TotalOfSnoc | src/screens/BalanceSummaryScreen.js:30-36 | appending a transaction adds its amount to the total of its own type and leaves the other totals unchanged |
| Transactions.TotalOfAppend | src/screens/BalanceSummaryScreen.js:30-36 | the total of a concatenation is the sum of the two totals |
| Prefs.Get | src/screens/SettingsScreen.js:28 | `getItem` is `null` exactly when the key is absent, otherwise the stored value |
| Prefs.Override | src/screens/SettingsScreen.js:32-34 | a stored value replaces a field only when it is truthy |
| Prefs.Set | src/screens/SettingsScreen.js:39 | `setItem` stores the value under its key and no other key changes |
| Prefs.Remove | src/screens/SettingsScreen.js:45 | `removeItem` deletes its key and no other key changes |
| Prefs.OwnerOf | src/utils/database.js:12 | the owner is the stored email when it is non-empty, `guest@expensemate.com` otherwise; never empty |
| Home.FilterByPeriod | src/screens/HomeScreen.js:63-91 | the period filter keeps, in order, exactly the transactions in the selected period, each as often as the list holds it |
| Home.UnknownKeyKeepsAll | src/screens/HomeScreen.js:87-88 | a filter key other than the four periods keeps every transaction |
| Home.TodayIsSameDay | src/screens/HomeScreen.js:70-71 | `today` keeps exactly the transactions on now's calendar day |
| Home.WeekIsSameMondayWeek | src/screens/HomeScreen.js:72-76 | `week` keeps exactly the transactions of now's Monday-start week, both ends included |
| Home.PeriodsNest | src/screens/HomeScreen.js:69-86 | a transaction of today is in this week and this month; one of this month is in this year |
| Home.NowInEveryPeriod | src/screens/HomeScreen.js:64-86 | the reference instant itself passes every filter |
| Home.LoadBudget | src/screens/HomeScreen.js:53-56 | the budget is `null` exactly when nothing or `''` is stored, else `parseFloat` of the stored text |
| Home.EvaluateBudget | src/screens/HomeScreen.js:159-186 | corrected: banner iff the budget is truthy; remaining (budget − expense) only on the month filter; the remaining line is red iff expense > budget; the warning only with a red remaining |
| Home.WarningIffOverspent | src/screens/HomeScreen.js:169-186 | the warning appears exactly when the remaining amount shown is negative |
| Home.SpendingExactlyBudgetIsNotExceeded | src/screens/HomeScreen.js:179-181 | spending exactly the budget is not exceeding it |
| Home.FalsyBudgetIsNoBudget | src/screens/HomeScreen.js:159-181 | corrected: a budget of 0 or NaN behaves exactly like no budget: no banner, no remaining, no warning |
| Home.StoredZeroBudgetHidden | src/screens/HomeScreen.js:53-56 | a stored `"0"` loads as the number 0, hides the banner, and as written leaves a bare 0 in both budget places |
| Home.BudgetChildren | src/screens/HomeScreen.js:159-186 | as written: each budget child is nothing exactly for no budget, a bare number exactly for a budget of 0 or NaN, and the element exactly for a truthy budget (the warning only on month with expense > budget) |
| Home.ChildrenAgreeWithView | src/screens/HomeScreen.js:159-186 | the children as written show the banner and the warning exactly when the corrected view does; they differ only by the bare number |
| Home.ZeroBudgetRendersBareZero | src/screens/HomeScreen.js:159-181 | as written a budget of 0 renders a bare `0` twice, where the corrected view renders nothing |
| Home.Recent | src/screens/HomeScreen.js:241-244 | the recent list is the prefix of the filtered list of length min(10, its length) |
| Home.RecentIgnoresOlder | src/screens/HomeScreen.js:241-244 | once ten transactions precede them, later ones never reach the recent list; the recent list is its own recent list |
| Home.Dashboard | src/screens/HomeScreen.js:63-118 | the filtered list holds each transaction of the period as often as the list does; the cards total Income and Expense over it; the recent list is its first min(10, n); the budget view is evaluated on that expense total: on the month filter with a truthy budget the remaining amount is budget − expense, red iff expense > budget; the warning holds iff the filter is month, the budget is truthy and expense > budget strictly |
| Home.MonthRemainingIsBudgetLessSpent | src/screens/HomeScreen.js:164-173 | on the month filter with a truthy budget the remaining amount is the budget less this month's expense total, red exactly when that total exceeds the budget |
| Home.EmptyPeriodTotalsZero | src/screens/HomeScreen.js:112-118 | with no transaction in the period both totals are 0 |
| Statistics.WeeklySeries | src/screens/StatisticsScreen.js:41-59 | the nested loops leave the income and expense slots equal to the per-day totals `Slots` |
| Statistics.Slots | src/screens/StatisticsScreen.js:43-58 | there are exactly seven slots, and slot i is the total of the transactions of the type on the i-th day from the week start |
| Statistics.SlotTotalIsFilteredSum | src/screens/StatisticsScreen.js:46-58 | a slot is the total of the transactions of its type on its day |
| Statistics.SlotTotalSnoc | src/screens/StatisticsScreen.js:50-56 | a new transaction changes a slot only if it has the slot's type and day |
| Statistics.SlotOfDay | src/screens/StatisticsScreen.js:48-50 | a transaction falls in slot i exactly when its day is the i-th day from the week start |
| Statistics.AtMostOneSlot | src/screens/StatisticsScreen.js:48-50 | a transaction falls in at most one slot |
| Statistics.SlotsSnoc | src/screens/StatisticsScreen.js:46-58 | a transaction bumps exactly the slot of its day when of the slot type and inside the seven days, and nothing otherwise |
| Statistics.SlotsSumToWindowTotal | src/screens/StatisticsScreen.js:46-59 | the seven slots add up to the total of that type over the seven days |
| Statistics.ChartValues | src/screens/StatisticsScreen.js:65-69 | the chart copy replaces each 0 slot by 0.1 and keeps every other value |
| Statistics.ChartOnlyReplacesZeros | src/screens/StatisticsScreen.js:65-69 | the chart copy differs from the slots only at zeros and never holds a 0 |
| Statistics.Accumulate | src/screens/StatisticsScreen.js:89 | `(acc[c] || 0) + amount`: a present category's entry gets that value and every other entry is unchanged; an absent category is appended with `0 + amount`; the categories stay distinct |
| Statistics.Group | src/screens/StatisticsScreen.js:78-93 | the map has distinct categories, and a category appears exactly when some passing transaction has it |
| Statistics.GroupEmptyIff | src/screens/StatisticsScreen.js:181 | the map is empty (the "no data" case) exactly when no transaction passes |
| Statistics.GroupValues | src/screens/StatisticsScreen.js:80-91 | each category's value is the total of its passing transactions |
| Statistics.GroupTotal | src/screens/StatisticsScreen.js:80-97 | the map's values add up to the total of the passing transactions |
| Statistics.CategoryBreakdown | src/screens/StatisticsScreen.js:76-94 | as written: a category appears exactly when a transaction of the selected type has it and an instant from the week start to `addDays(weekStart, 6)` |
| Statistics.CategoryBreakdownByDay | src/screens/StatisticsScreen.js:76-94 | corrected: the same, with the window read as the seven calendar days |
| Statistics.BreakdownTotalIsWindowTotal | src/screens/StatisticsScreen.js:96-97 | as written, `total` is the selected type's total over the instant window |
| Statistics.SundayAfterMidnightLeftOut | src/screens/StatisticsScreen.js:77-84 | as written, a transaction on the week's Sunday after 00:00 fails the breakdown test though its day is in the week |
| Statistics.SundayNoonMissedByBreakdown | src/screens/StatisticsScreen.js:77-84 | as written, a lunch at Sunday noon leaves the breakdown empty |
| Statistics.SundayNoonInBars | src/screens/StatisticsScreen.js:46-56 | the same lunch appears in the Sunday expense bar |
| Statistics.SundayNoonInByDayBreakdown | src/screens/StatisticsScreen.js:76-94 | the corrected breakdown lists the lunch under Food |
| Statistics.ByDayTotalMatchesBars | src/screens/StatisticsScreen.js:76-97 | the corrected breakdown's total equals the sum of the week's bars of the same type |
| Statistics.Share | src/screens/StatisticsScreen.js:185 | the percent is 0 when the total is 0, else amount / total |
| Statistics.Shares | src/screens/StatisticsScreen.js:184-185 | one percent per category, in order: the i-th is the i-th amount's share of the breakdown total |
| Statistics.SharesSumToOne | src/screens/StatisticsScreen.js:185 | when the total is a non-zero number the percents add up to 1 |
| Statistics.WeeklyReport | src/screens/StatisticsScreen.js:41-97 | as written: seven bars per type and their chart copies; the breakdown lists a category exactly when a transaction of the selected type in the instant window has it, with its total; the total is the selected type's total over that window; percents add up to 1 when the total is non-zero |
| Statistics.WeeklyReportByDay | src/screens/StatisticsScreen.js:41-97 | corrected: the same with the breakdown over the seven calendar days; its total equals the sum of the selected type's bars |
| Statistics.SundayNoonReports | src/screens/StatisticsScreen.js:41-97 | a lunch at Sunday noon: the report as written has an empty breakdown and total 0, the corrected one lists Food 5 with total 5 |
| Balance.Summarize | src/screens/BalanceSummaryScreen.js:30-104 | the totals per type; the counts are the counts of Income and of Expense rows; the balance is a number exactly when both totals are, and then income − expense; green iff balance ≥ 0 |
| Balance.CountsPartition | src/screens/BalanceSummaryScreen.js:93-105 | income count + expense count + other count = total count |
| Balance.NoOtherIffZeroCount | src/screens/BalanceSummaryScreen.js:93-105 | the two counts add up to the total exactly when every type is Income or Expense |
| Balance.EmptySummary | src/screens/BalanceSummaryScreen.js:30-36 | an empty list gives totals 0, balance 0 and green |
| Balance.AddIncome | src/screens/BalanceSummaryScreen.js:30-104 | appending an Income raises the income total by its amount and the income count by 1, and leaves the expense total and count unchanged |
| Balance.AddExpense | src/screens/BalanceSummaryScreen.js:30-104 | appending an Expense raises the expense total by its amount and the expense count by 1, and leaves the income total and count unchanged |
| TransactionList.Search | src/screens/TransactionScreen.js:40-53 | a blank query keeps the list; otherwise the search throws exactly when some row fails both text tests and has a `null` amount, and else gives an order-preserving subsequence holding each matching transaction as often as the list does and nothing else |
| TransactionList.BlankQueryKeepsAll | src/screens/TransactionScreen.js:42-43 | the list comes back whole for queries of white space only; any other query filters it |
| TransactionList.TextMatchesPrefix | src/screens/TransactionScreen.js:47-48 | a transaction whose text matches a query matches every prefix of it by text |
| TransactionList.MatchesPrefix | src/screens/TransactionScreen.js:45-50 | a transaction matching a query matches every prefix of it |
| TransactionList.LongerQueryNarrows | src/screens/TransactionScreen.js:45-50 | typing more never adds a transaction to the result, and a search that throws keeps throwing |
| TransactionList.LowerCaseQueryFindsCategory | src/screens/TransactionScreen.js:47 | `food` finds the category `Food` |
| TransactionList.SurroundingSpacesMatter | src/screens/TransactionScreen.js:42-49 | ` food` with a leading space does not find it: only the blank test trims |
| TransactionList.SpacedQueryMissesLunch | src/screens/TransactionScreen.js:45-50 | the lunch of amount 5 matches ` food` neither by text nor by amount |
| TransactionList.SetAmount | src/screens/TransactionScreen.js:148-150 | the amount field takes the text typed; every other field is kept |
| TransactionList.SetDescription | src/screens/TransactionScreen.js:157-160 | the description takes the text typed; every other field is kept |
| TransactionList.EditDescriptionOnly | src/screens/TransactionScreen.js:157-160 | a description edit changes only the description of the stored transaction |
| TransactionList.EditAmountOnly | src/screens/TransactionScreen.js:148-150 | an amount edit changes only the amount, to what `parseFloat` reads from the text |
| TransactionList.EditNothing | src/screens/TransactionScreen.js:73-79 | saving an untouched edit stores the transaction unchanged |
| TransactionList.RetypeDisplayedAmount | src/screens/TransactionScreen.js:88-91 | retyping an amount in whole cents as the list displays it stores the same transaction |
| TransactionList.ReplaceKeepsTotals | src/utils/database.js:39-54 | replacing a transaction by one of the same type and amount keeps every total |
| TransactionList.DescriptionEditKeepsTotals | src/screens/TransactionScreen.js:157-160 | a description edit keeps the income and expense totals |
| TransactionList.HandleUpdate | src/screens/TransactionScreen.js:77-86 | a failing update stores nothing, keeps the draft open and alerts updateFailed; a successful one writes the draft's row over every row of its id, closes the editor and alerts success |
| TransactionList.UpdateTouchesOneRow | src/utils/database.js:39-51 | with distinct ids a successful update changes only the edited row |
| TransactionList.SavedDescriptionKeepsTotals | src/screens/TransactionScreen.js:77-86 | a saved description edit keeps the table's income and expense totals |
| TransactionList.UnparsedAmountBreaksSearch | src/utils/database.js:43 | an amount edit that does not parse is stored as `null`; then its type's total is NaN, and a non-blank query that row does not match by text makes the search throw |
| AddTransaction.InitialForm | src/screens/AddTransactionScreen.js:20-25 | the form opens empty, on Food, Income, at now, picker closed |
| AddTransaction.PickerItems | src/screens/AddTransactionScreen.js:27-49 | the picker lists exactly the 14 categories in order, each labelled `category_<lower-case>` |
| AddTransaction.InitialCategoryListed | src/screens/AddTransactionScreen.js:22-49 | the opening category is the first listed, labelled `category_food` |
| AddTransaction.OnDateChange | src/screens/AddTransactionScreen.js:79-84 | the picker always closes; the date changes only to a selected date; nothing else changes |
| AddTransaction.DismissKeepsDate | src/screens/AddTransactionScreen.js:79-84 | a dismissal keeps the date, and dismissing after any change is a no-op |
| AddTransaction.HandleSave | src/screens/AddTransactionScreen.js:51-77 | empty fields: allFieldsRequired and no insert; NaN amount: invalidAmount and no insert; otherwise one insert of the parsed amount and selected fields under the owner; a failing insert alerts invalidAmount; only success closes |
| AddTransaction.InitialFormNeedsInput | src/screens/AddTransactionScreen.js:52-55 | the freshly opened form cannot be saved |
| AddTransaction.DigitAmountSaved | src/screens/AddTransactionScreen.js:58-73 | a digit amount with a description is saved as that whole number |
| AddTransaction.Inserted | src/utils/database.js:11-18 | the row inserted never has a NaN amount |
| AddTransaction.SaveAddsToTotal | src/screens/AddTransactionScreen.js:64-73 | a saved row adds its amount to its type's total, leaves other totals, and brings no NaN |
| Settings.LoadSettings | src/screens/SettingsScreen.js:27-35 | each field takes the stored value only when it is truthy; the switch reads `=== 'true'` |
| Settings.LoadFromEmptyStore | src/screens/SettingsScreen.js:18-35 | with nothing stored the screen keeps its opening state |
| Settings.SetBudget | src/screens/SettingsScreen.js:37-42 | an accepted budget text is stored as typed with budgetUpdated; otherwise the store is untouched and there is no alert; only the budget key can change |
| Settings.SavedBudgetReachesDashboard | src/screens/SettingsScreen.js:37-42 | a saved budget loads on the dashboard as a number, never NaN |
| Settings.ZeroBudgetSavedButHidden | src/screens/SettingsScreen.js:38-40 | `"0"` is accepted and saved; the corrected dashboard then shows no budget, and as written the banner's place holds a bare 0 |
| Settings.RemoveBudget | src/screens/SettingsScreen.js:44-48 | removes only the budget key and clears the field |
| Settings.RemovedBudgetHidden | src/screens/SettingsScreen.js:44-48 | after removal the dashboard shows no budget |
| Settings.SetPin | src/screens/SettingsScreen.js:50-58 | as written: a 4-character `!isNaN` PIN is stored and the field cleared; otherwise invalidPin and nothing changes |
| Settings.DecimalPinAccepted | src/screens/SettingsScreen.js:51-53 | as written, `1.25` is accepted and stored as the PIN |
| Settings.SetDigitPin | src/screens/SettingsScreen.js:50-58 | corrected: the same, accepting exactly four decimal digits |
| Settings.DigitPinNarrowsPin | src/screens/SettingsScreen.js:51 | the corrected test agrees with the written one on every four-digit PIN and rejects `1.25` |
| Settings.RemovePin | src/screens/SettingsScreen.js:60-63 | removes only the PIN key |
| Settings.ToggleNotifications | src/screens/SettingsScreen.js:65-69 | stores `"true"` or `"false"`, sets the switch, alerts enabled or disabled; only that key changes |
| Settings.NotificationsRoundTrip | src/screens/SettingsScreen.js:65-68 | the next load reads back the value set |
| Settings.ChangeLanguage | src/screens/SettingsScreen.js:71-75 | stores and selects the language; only that key changes |
| Settings.LanguageRoundTrip | src/screens/SettingsScreen.js:71-75 | the next load selects the language set, except `''`, which loading ignores |
| Settings.ResetData | src/screens/SettingsScreen.js:85-90 | after the reset the store holds only `email`, with its old value, and only if it was truthy; the reset alerts profileResetSuccess and navigates to Welcome |
| Settings.ResetKeepsOwner | src/screens/SettingsScreen.js:85-88 | the reset keeps the owner of the transactions |
| Settings.ResetIdempotent | src/screens/SettingsScreen.js:85-90 | resetting twice is resetting once: the same store, alert and navigation |
| Launch.CheckInitialRoute | App.js:21-33 | Welcome exactly when `isFirstTime` is absent, and it writes `"false"`; Pin exactly when it is present and a truthy PIN is stored; Main otherwise |
| Launch.FirstLaunchIgnoresPin | App.js:25-29 | the first-launch test takes priority over the PIN |
| Launch.SecondLaunchNeverWelcome | App.js:25-31 | the launch after a launch is never Welcome; it is Pin exactly when a PIN is set |
| Launch.LaunchAfterSetPin | App.js:28-29 | after saving a four-digit PIN the next launch asks for it |
| Launch.LaunchAfterRemovePin | App.js:30-31 | after removing the PIN the next launch opens Main |
| Launch.LaunchAfterReset | App.js:25-27 | a reset of all data navigates to Welcome, and the next launch is a first launch, which opens Welcome too |
| PinLock.HandleUnlock | src/screens/PinScreen.js:18-26 | Main exactly when the entry strictly equals the stored PIN; otherwise the error becomes incorrectPin and nothing else changes |
| PinLock.OnPinTextChange | src/screens/PinScreen.js:36-39 | any text change takes the text and clears the error |
| PinLock.NoStoredPinNeverUnlocks | src/screens/PinScreen.js:15-25 | with no stored PIN no entry unlocks, however often Unlock is pressed |
| PinLock.TypingClearsError | src/screens/PinScreen.js:23-39 | a failed attempt keeps the entry, and typing clears its error |
| PinLock.SavedPinUnlocks | src/screens/PinScreen.js:21-22 | after saving a four-digit PIN exactly that entry unlocks |
| PinLock.RemovedPinLocksOut | src/screens/PinScreen.js:19-25 | after removing the PIN nothing unlocks |
| Profile.LoadProfile | src/screens/ProfileScreen.js:28-36 | each field takes the stored value only when it is truthy |
| Profile.PickImage | src/screens/ProfileScreen.js:38-50 | a cancelled pick changes nothing; a picked URI is stored and shown; only the picture key changes; no alert |
| Profile.PickedImageReloads | src/screens/ProfileScreen.js:46-49 | a picked picture is shown on the next load, unless its URI is `''` |
| Profile.ResetProfile | src/screens/ProfileScreen.js:60-65 | removes exactly the picture and the name, shows no picture and the name `User`, and alerts profileResetSuccess |
| Profile.ResetThenLoad | src/screens/ProfileScreen.js:61-64 | the reset keeps the email; the next load shows the defaults with the same email |
| Profile.ShownEmailIsNotOwner | src/screens/ProfileScreen.js:20 | with no email stored the profile shows `user@example.com` while the rows are filed under the guest email |

## Findings

| source | as written | input that shows it | evidently intended | confidence | as-written member | corrected member |
|---|---|---|---|---|---|---|
| src/screens/StatisticsScreen.js:77-84 | the week's category breakdown keeps instants up to `addDays(weekStart, 6)`, which is Sunday 00:00 | 5 spent on Food at Sunday noon in the week starting Monday 1970-01-05: the Sunday bar shows it, the breakdown is empty | the breakdown covers the seven calendar days the bars cover | high; not executed | Statistics.SundayNoonMissedByBreakdown | Statistics.CategoryBreakdownByDay |
| src/screens/HomeScreen.js:159-181 | `{monthlyBudget && (…)}` renders the budget's own value when it is 0 or NaN | a stored budget `"0"` (which the settings accept): both budget children render a bare `0`, a raw string outside `<Text>` | a budget of 0 shows nothing, as `!!monthlyBudget` would | medium; not executed | Home.ZeroBudgetRendersBareZero | Home.FalsyBudgetIsNoBudget |
| src/screens/SettingsScreen.js:51 | a PIN is accepted when it has four characters and `!isNaN(pin)` | `1.25` (also `-123` or `1e10`) is stored as the PIN | exactly four digits, as the field's "4-digit PIN" placeholder says | medium; not executed | Settings.DecimalPinAccepted | Settings.SetDigitPin |

`Statistics.WeeklyReport` is the report as written and `Statistics.WeeklyReportByDay` the corrected
one. `Home.EvaluateBudget` and `Home.Dashboard` describe the corrected budget view; `Home.BudgetChildren`
is the view as written, and `Home.ChildrenAgreeWithView` shows they differ only by the bare number.
`Launch.LaunchAfterSetPin` and
`PinLock.SavedPinUnlocks` use the corrected PIN test. `Statistics.SundayAfterMidnightLeftOut`
states the breakdown discrepancy for every such transaction, and `Settings.DigitPinNarrowsPin`
shows that the corrected PIN test only removes cases.

## Left out

- Floating point: amounts are exact reals, so there is no rounding, overflow or `Infinity`.
- JsNumber.ParseFloat reads `Infinity` as NaN, because the model has no infinite number.
- `Number.prototype.toString` is not modelled. The search passes it in as a parameter (`show`). The edit form assumes that `parseFloat` of a number's own text gives back the number.
- `toLowerCase` is modelled on ASCII letters only.
- Time zones and daylight saving are not modelled. Instants are local milliseconds with the offset already applied.
- Month and year bounds come from `startOfMonth`/`endOfMonth` and `startOfYear`/`endOfYear`. They enter through the clock reading, so the civil calendar is not modelled.
- Dates stored as ISO strings are represented by their instants.
- The Supabase client behind src/utils/database.js is not part of this model. The transaction list is an input: its fetch, its order and the owner filter are not modelled. An insert's failure is a parameter.
- `handleDelete` is not modelled: it only calls `deleteTransaction` and reloads the list.
- `resetAllTransactionsForUser` (src/utils/database.js:65-74) is not modelled: nothing in the app calls it. The settings reset clears the preference store only, and the transaction rows stay.
- The order of `Object.entries`, which in JavaScript lists integer-like keys first, is not modelled. The breakdown keeps categories in insertion order.
- Statistics.GroupValues: stated only when no amount is NaN. The code's `|| 0` turns a NaN running value back into 0 at the next addition.
- Statistics.GroupTotal: likewise stated only when no amount is NaN.
- Statistics.BreakdownTotalIsWindowTotal: likewise stated only when no amount is NaN.
- Statistics.ByDayTotalMatchesBars: likewise stated only when no amount is NaN.
- Statistics.WeeklyReport: its breakdown values and total are stated only when no amount is NaN.
- Statistics.WeeklyReportByDay: its total is related to the bars only when no amount is NaN.
- TransactionList.StartEdit: opening the editor on a row with a `null` amount throws when the form renders `amount.toString()`; the model opens it.
- The reload after a successful update (`loadTransactions`) is not modelled; the table is kept in its stored order.
- Rendering, navigation, Alert dialogs and i18n lookups are reduced to outcome tags and translation keys. This includes `getFormattedDate`, `weekRange`, the chart kit, the image and date pickers, `maxLength` and `keyboardType`.
- The `i18n.changeLanguage` call in `changeLanguage` is not modelled.
- The cancel branch of the two confirmation dialogs is not modelled, since it does nothing.
- Asynchrony is not modelled. The awaits of AsyncStorage run in order, and no other handler interleaves.
- The dashboard's profile-picture load, WelcomeScreen and MainTabNavigator are UI outside the core.

=== FILE: addtransaction.dfy ===
/**
 * The add-transaction form: its initial state, the category picker, the date picker,
 * and `handleSave`, which validates the form and issues at most one insert.
 */
module AddTransaction {
  import opened Wrappers
  import opened Text
  import opened JsNumber
  import opened Numbers
  import opened Transactions
  import opened Prefs

  /** The form's state: the two text fields, the selections, and whether the date picker is open. */
  datatype AddForm = AddForm(
    amount: string, description: string, category: string, kind: TxType, date: int, showPicker: bool)

  /** The form as it opens at instant `now`. */
  function InitialForm(now: int): (f: AddForm)
    ensures f.amount == "" && f.description == ""
    ensures f.category == "Food" && f.kind == Income && f.date == now
    ensures !f.showPicker
  {
    AddForm("", "", "Food", Income, now, false)
  }

  /** The selectable categories, in the order the picker lists them. */
  const Categories: seq<string> := [
    "Food", "Shopping", "Fuel", "Salary", "Subscription", "Grocery", "Personal",
    "Travel", "Medicine", "Entertainment", "Bills", "Education", "Investment", "Others"]

  /** A picker entry: the stored value and the translation key of its label. */
  datatype PickerItem = PickerItem(value: string, labelKey: string)

  /** `getLocalizedCategories`, with the translation left as its key `category_<lower-case value>`. */
  function PickerItems(): (r: seq<PickerItem>)
    ensures |r| == |Categories| == 14
    ensures forall i :: 0 <= i < |r| ==> r[i].value == Categories[i]
    ensures forall i :: 0 <= i < |r| ==> r[i].labelKey == "category_" + Lower(Categories[i])
  {
    seq(|Categories|, i requires 0 <= i < |Categories| =>
      PickerItem(Categories[i], "category_" + Lower(Categories[i])))
  }

  /** The category the form opens with is the first one the picker lists, labelled `category_food`. */
  lemma InitialCategoryListed(now: int)
    ensures PickerItems()[0] == PickerItem(InitialForm(now).category, "category_food")
  {
    assert Lower("Food") == "food";
  }

  /** `onDateChange`: the picker always closes; the date changes only when one was selected. */
  function OnDateChange(f: AddForm, selected: Option<int>): (r: AddForm)
    ensures !r.showPicker
    ensures r.date == (if selected.Some? then selected.value else f.date)
    ensures r.(date := f.date, showPicker := f.showPicker) == f
  {
    f.(showPicker := false, date := if selected.Some? then selected.value else f.date)
  }

  /** Dismissing the picker without a selection keeps the date, and after any change a dismissal is a no-op. */
  lemma DismissKeepsDate(f: AddForm, selected: Option<int>)
    ensures OnDateChange(f, None).date == f.date
    ensures OnDateChange(OnDateChange(f, selected), None) == OnDateChange(f, selected)
  {
  }

  /** The alert `handleSave` ends with. */
  datatype SaveAlert = AllFieldsRequired | InvalidAmount | TransactionSaved

  /** The row `addTransaction` inserts: the owner, the parsed amount and the selected fields. */
  datatype AddRequest = AddRequest(owner: string, amount: real, category: string, kind: TxType, date: int, description: string)

  /** What one press of Save does: the insert it issues (if any), the alert, and whether the screen closes. */
  datatype SaveOutcome = SaveOutcome(request: Option<AddRequest>, alert: SaveAlert, closes: bool)

  /** Both text fields are non-empty (`!amount || !description` fails). */
  predicate FieldsFilled(f: AddForm) {
    f.amount != "" && f.description != ""
  }

  /**
   * `handleSave`. `storeFails` is whether the insert, once issued, throws; `store` is
   * the preference store, whose `email` names the owner of the new row.
   */
  function HandleSave(f: AddForm, store: Store, storeFails: bool): (o: SaveOutcome)
    ensures o.alert == AllFieldsRequired <==> !FieldsFilled(f)
    ensures o.request.Some? <==> FieldsFilled(f) && ParseFloat(f.amount).Some?
    ensures o.request.Some? ==>
              o.request.value == AddRequest(OwnerOf(store), ParseFloat(f.amount).value, f.category, f.kind, f.date, f.description)
    ensures o.alert == InvalidAmount <==> FieldsFilled(f) && (ParseFloat(f.amount).None? || storeFails)
    ensures o.closes <==> o.alert == TransactionSaved
    ensures o.alert == TransactionSaved <==> o.request.Some? && !storeFails
  {
    if !FieldsFilled(f) then SaveOutcome(None, AllFieldsRequired, false)
    else match ParseFloat(f.amount)
      case None => SaveOutcome(None, InvalidAmount, false)
      case Some(v) =>
        var request := AddRequest(OwnerOf(store), v, f.category, f.kind, f.date, f.description);
        if storeFails then SaveOutcome(Some(request), InvalidAmount, false)
        else SaveOutcome(Some(request), TransactionSaved, true)
  }

  /** The freshly opened form cannot be saved: both fields are still empty. */
  lemma InitialFormNeedsInput(now: int, store: Store, storeFails: bool)
    ensures HandleSave(InitialForm(now), store, storeFails) == SaveOutcome(None, AllFieldsRequired, false)
  {
  }

  /** An amount typed as plain digits is saved as that whole number. */
  lemma DigitAmountSaved(f: AddForm, store: Store)
    requires |f.amount| > 0 && AllDigits(f.amount) && f.description != ""
    ensures HandleSave(f, store, false).alert == TransactionSaved
    ensures HandleSave(f, store, false).request.value.amount == DigitsValue(f.amount) as real
  {
    ParseDigits(false, f.amount);
    assert SignedText(false, f.amount) == f.amount;
  }

  /** The row the store keeps for a request, under the id it assigns. */
  function Inserted(r: AddRequest, id: string): (tx: Tx)
    ensures tx.amount.Some?
  {
    Tx(id, Some(r.amount), r.category, r.kind, r.date, r.description)
  }

  /**
   * A saved row adds its amount to the total of its type and leaves the other totals
   * alone; it is never NaN, so it cannot turn a total into NaN.
   */
  lemma SaveAddsToTotal(txs: seq<Tx>, f: AddForm, store: Store, id: string, k: TxType)
    requires HandleSave(f, store, false).alert == TransactionSaved
    ensures var tx := Inserted(HandleSave(f, store, false).request.value, id);
            && TotalOf(txs + [tx], k) == (if k == f.kind then Plus(TotalOf(txs, k), tx.amount) else TotalOf(txs, k))
            && (NoNaN(txs) ==> NoNaN(txs + [tx]))
  {
    var tx := Inserted(HandleSave(f, store, false).request.value, id);
    TotalOfSnoc(txs, tx, k);
  }
}

=== FILE: balance.dfy ===
/** The balance summary: all-time income and expense totals, their difference, and the counts. */
module Balance {
  import opened Wrappers
  import opened Seqs
  import opened Numbers
  import opened Transactions

  /** What the summary screen shows. `green` is the colour of the balance (`balance >= 0`). */
  datatype Summary = Summary(
    income: Number, expense: Number, balance: Number, green: bool,
    count: nat, incomeCount: nat, expenseCount: nat)

  /** Every transaction is of exactly one of the three types. */
  lemma {:induction false} CountsPartition(txs: seq<Tx>)
    ensures CountOf(txs, Income) + CountOf(txs, Expense) + CountOf(txs, Other) == |txs|
    decreases |txs|
  {
    if |txs| > 0 {
      var init := txs[..|txs| - 1];
      var tx := txs[|txs| - 1];
      assert txs == init + [tx];
      CountsPartition(init);
      FilterSnoc(init, tx, OfKind(Income));
      FilterSnoc(init, tx, OfKind(Expense));
      FilterSnoc(init, tx, OfKind(Other));
    }
  }

  /** There is no `Other` transaction exactly when the `Other` count is 0. */
  lemma NoOtherIffZeroCount(txs: seq<Tx>)
    ensures CountOf(txs, Other) == 0 <==> forall i :: 0 <= i < |txs| ==> txs[i].kind != Other
  {
    var f := Filter(txs, OfKind(Other));
    if |f| > 0 {
      assert f[0] in txs;
    } else {
      forall i | 0 <= i < |txs| ensures txs[i].kind != Other {
        assert txs[i] !in f;
      }
    }
  }

  function Summarize(txs: seq<Tx>): (s: Summary)
    ensures s.income == TotalOf(txs, Income) && s.expense == TotalOf(txs, Expense)
    ensures s.balance.Some? <==> s.income.Some? && s.expense.Some?
    ensures s.balance.Some? ==> s.balance.value == s.income.value - s.expense.value
    ensures s.green <==> s.income.Some? && s.expense.Some? && s.income.value >= s.expense.value
    ensures s.count == |txs|
    ensures s.incomeCount == CountOf(txs, Income) && s.expenseCount == CountOf(txs, Expense)
    ensures s.incomeCount + s.expenseCount <= s.count
    ensures s.incomeCount + s.expenseCount == s.count <==> forall i :: 0 <= i < |txs| ==> txs[i].kind != Other
  {
    CountsPartition(txs);
    NoOtherIffZeroCount(txs);
    var income := TotalOf(txs, Income);
    var expense := TotalOf(txs, Expense);
    var balance := Minus(income, expense);
    Summary(income, expense, balance, AtLeast(balance, Some(0.0)),
            |txs|, CountOf(txs, Income), CountOf(txs, Expense))
  }

  /** With no transactions every figure is 0 and the balance is green. */
  lemma EmptySummary()
    ensures Summarize([]) == Summary(Some(0.0), Some(0.0), Some(0.0), true, 0, 0, 0)
  {
  }

  /** Recording income raises the income total by its amount and leaves the expense total alone. */
  lemma AddIncome(txs: seq<Tx>, tx: Tx)
    requires tx.kind == Income
    ensures Summarize(txs + [tx]).income == Plus(Summarize(txs).income, tx.amount)
    ensures Summarize(txs + [tx]).expense == Summarize(txs).expense
    ensures Summarize(txs + [tx]).incomeCount == Summarize(txs).incomeCount + 1
    ensures Summarize(txs + [tx]).expenseCount == Summarize(txs).expenseCount
  {
    TotalOfSnoc(txs, tx, Income);
    TotalOfSnoc(txs, tx, Expense);
    CountOfSnoc(txs, tx, Income);
    CountOfSnoc(txs, tx, Expense);
  }

  /** Recording an expense raises the expense total by its amount and leaves the income total alone. */
  lemma AddExpense(txs: seq<Tx>, tx: Tx)
    requires tx.kind == Expense
    ensures Summarize(txs + [tx]).expense == Plus(Summarize(txs).expense, tx.amount)
    ensures Summarize(txs + [tx]).income == Summarize(txs).income
    ensures Summarize(txs + [tx]).expenseCount == Summarize(txs).expenseCount + 1
    ensures Summarize(txs + [tx]).incomeCount == Summarize(txs).incomeCount
  {
    TotalOfSnoc(txs, tx, Income);
    TotalOfSnoc(txs, tx, Expense);
    CountOfSnoc(txs, tx, Income);
    CountOfSnoc(txs, tx, Expense);
  }
}

=== FILE: calendar.dfy ===
/**
 * Local wall-clock instants and the date-fns helpers the screens use on them.
 *
 * An instant is a whole number of milliseconds since 1970-01-01 00:00 local time
 * (the time zone is already applied). Days, weeks and `addDays` are derived by
 * arithmetic; month and year bounds come in with the reading of the clock.
 */
module Calendar {

  const MsPerDay: int := 86400000

  /** The local calendar day of `t`, counted from 1970-01-01. */
  function DayOf(t: int): int {
    t / MsPerDay
  }

  /** `startOfDay(t)`: midnight of the day of `t`. */
  function StartOfDay(t: int): (r: int)
    ensures r <= t < r + MsPerDay
    ensures DayOf(r) == DayOf(t)
  {
    DayOf(t) * MsPerDay
  }

  /** Day of the week of epoch day `d`, Monday = 0 … Sunday = 6 (1970-01-01 was a Thursday). */
  function Weekday(d: int): (w: int)
    ensures 0 <= w < 7
  {
    (d + 3) % 7
  }

  /** The Monday on or before epoch day `d`. */
  function MondayOf(d: int): (m: int)
    ensures Weekday(m) == 0
    ensures m <= d < m + 7
  {
    d - Weekday(d)
  }

  /** `startOfWeek(t, { weekStartsOn: 1 })`: Monday 00:00 of the week of `t`. */
  function StartOfWeek(t: int): (r: int)
    ensures r <= t
    ensures Weekday(DayOf(r)) == 0
  {
    MondayOf(DayOf(t)) * MsPerDay
  }

  /** `endOfWeek(t, { weekStartsOn: 1 })`: the last millisecond of Sunday of the week of `t`. */
  function EndOfWeek(t: int): (r: int)
    ensures t <= r
  {
    StartOfWeek(t) + 7 * MsPerDay - 1
  }

  /** `addDays(t, n)`: the same wall-clock time `n` days later. */
  function AddDays(t: int, n: int): int {
    t + n * MsPerDay
  }

  /** `isSameDay(a, b)`. */
  predicate IsSameDay(a: int, b: int) {
    DayOf(a) == DayOf(b)
  }

  /** A closed range of instants, as `isWithinInterval` reads `{ start, end }`. */
  datatype Interval = Interval(start: int, end: int) {
    predicate Contains(t: int) {
      start <= t <= end
    }
  }

  /** The whole days `first` through `last`, from the first to the last millisecond. */
  function DaySpan(first: int, last: int): (r: Interval)
    ensures forall t :: r.Contains(t) <==> first <= DayOf(t) <= last
  {
    Interval(first * MsPerDay, (last + 1) * MsPerDay - 1)
  }

  /**
   * A reading of the clock: the instant `now`, and the bounds date-fns computes for it
   * with `startOfMonth`/`endOfMonth` and `startOfYear`/`endOfYear`.
   */
  datatype Clock = Clock(now: int, month: Interval, year: Interval)

  /**
   * What the calendar guarantees about a reading: the month is a run of whole days
   * containing `now`, and it lies inside the year.
   */
  predicate ValidClock(c: Clock) {
    && c.month == DaySpan(DayOf(c.month.start), DayOf(c.month.end))
    && c.month.Contains(c.now)
    && c.year.start <= c.month.start
    && c.month.end <= c.year.end
  }

  /** `addDays` moves the calendar day by exactly `n`. */
  lemma DayOfAddDays(t: int, n: int)
    ensures DayOf(AddDays(t, n)) == DayOf(t) + n
  {
    assert AddDays(t, n) == StartOfDay(t) + (t - StartOfDay(t)) + n * MsPerDay;
  }

  /** The Monday-start week of `now`, as an interval, is the run of days with the same Monday. */
  lemma WeekOfIff(now: int, t: int)
    ensures StartOfWeek(now) <= t <= EndOfWeek(now) <==> MondayOf(DayOf(t)) == MondayOf(DayOf(now))
  {
    var m := MondayOf(DayOf(now));
    assert Interval(StartOfWeek(now), EndOfWeek(now)) == DaySpan(m, m + 6);
    var d := DayOf(t);
    if m <= d <= m + 6 {
      MondayUnique(d, m);
    }
  }

  /** A Monday at most six days before `d` is the Monday of `d`. */
  lemma MondayUnique(d: int, m: int)
    requires Weekday(m) == 0 && m <= d <= m + 6
    ensures MondayOf(d) == m
  {
    var k := d - m;
    assert (m + 3) % 7 == 0;
    assert d + 3 == (m + 3) + k;
    assert Weekday(d) == k;
  }
}

=== FILE: home.dfy ===
/**
 * The dashboard: the period filter, the income and expense cards over the filtered
 * transactions, the monthly-budget banner and warning, and the recent-transactions list.
 */
module Home {
  import opened Wrappers
  import opened Seqs
  import opened Calendar
  import opened JsNumber
  import opened Numbers
  import opened Transactions
  import opened Prefs

  /** The instant `t` falls in the period the filter `key` selects, read against `clock`. */
  predicate InPeriod(key: string, clock: Clock, t: int) {
    if key == "today" then IsSameDay(t, clock.now)
    else if key == "week" then Interval(StartOfWeek(clock.now), EndOfWeek(clock.now)).Contains(t)
    else if key == "month" then clock.month.Contains(t)
    else if key == "year" then clock.year.Contains(t)
    else true
  }

  function InPeriodTest(key: string, clock: Clock): Tx -> bool {
    (tx: Tx) => InPeriod(key, clock, tx.date)
  }

  /** `getFilteredTransactions`: the transactions in the selected period, in their original order. */
  function FilterByPeriod(txs: seq<Tx>, key: string, clock: Clock): (r: seq<Tx>)
    ensures Subseq(r, txs)
    ensures forall i :: 0 <= i < |r| ==> InPeriod(key, clock, r[i].date)
    ensures forall tx :: tx in txs ==> (tx in r <==> InPeriod(key, clock, tx.date))
    ensures forall tx :: multiset(r)[tx] == if InPeriod(key, clock, tx.date) then multiset(txs)[tx] else 0
  {
    FilterCounts(txs, InPeriodTest(key, clock));
    Filter(txs, InPeriodTest(key, clock))
  }

  /** A key other than the four periods keeps every transaction. */
  lemma UnknownKeyKeepsAll(txs: seq<Tx>, key: string, clock: Clock)
    requires key !in {"today", "week", "month", "year"}
    ensures FilterByPeriod(txs, key, clock) == txs
  {
    FilterAllPass(txs, InPeriodTest(key, clock));
  }

  /** `today` keeps exactly the transactions on the calendar day of `now`. */
  lemma TodayIsSameDay(clock: Clock, t: int)
    ensures InPeriod("today", clock, t) <==> DayOf(t) == DayOf(clock.now)
  {
  }

  /** `week` keeps exactly the transactions in the Monday-start week of `now`. */
  lemma WeekIsSameMondayWeek(clock: Clock, t: int)
    ensures InPeriod("week", clock, t) <==> MondayOf(DayOf(t)) == MondayOf(DayOf(clock.now))
  {
    WeekOfIff(clock.now, t);
  }

  /** The periods nest: a transaction of today is in this week, this month and this year. */
  lemma PeriodsNest(clock: Clock, t: int)
    requires ValidClock(clock)
    ensures InPeriod("today", clock, t) ==> InPeriod("week", clock, t) && InPeriod("month", clock, t)
    ensures InPeriod("month", clock, t) ==> InPeriod("year", clock, t)
  {
    WeekOfIff(clock.now, t);
  }

  /** `now` itself lies in every period. */
  lemma NowInEveryPeriod(clock: Clock, key: string)
    requires ValidClock(clock)
    ensures InPeriod(key, clock, clock.now)
  {
    WeekOfIff(clock.now, clock.now);
  }

  /**
   * `loadBudget`: `budget ? parseFloat(budget) : null`. `None` is `null` (nothing or `''`
   * stored); `Some(n)` is the parsed number, which may be NaN.
   */
  function LoadBudget(store: Store): (b: Option<Number>)
    ensures b.None? <==> !Filled(Get(store, BudgetKey))
    ensures b.Some? ==> b.value == ParseFloat(store[BudgetKey])
  {
    var budget := Get(store, BudgetKey);
    if Filled(budget) then Some(ParseFloat(budget.value)) else None
  }

  /** The budget counts only when it is truthy: not `null`, not NaN, not 0. */
  predicate BudgetSet(budget: Option<Number>) {
    budget.Some? && Truthy(budget.value)
  }

  /**
   * What the dashboard shows about the budget: the banner, the remaining amount (only on
   * the month filter), its colour, and the exceeded warning.
   */
  datatype BudgetView = BudgetView(banner: bool, remaining: Option<Number>, remainingRed: bool, warning: bool)

  function EvaluateBudget(budget: Option<Number>, key: string, expense: Number): (v: BudgetView)
    ensures v.banner <==> BudgetSet(budget)
    ensures v.remaining.Some? <==> BudgetSet(budget) && key == "month"
    ensures v.remaining.Some? ==> v.remaining.value == Minus(budget.value, expense)
    ensures v.remainingRed <==> v.remaining.Some? && Greater(expense, budget.value)
    ensures v.warning ==> v.remaining.Some? && v.remainingRed
  {
    var banner := BudgetSet(budget);
    var onMonth := banner && key == "month";
    BudgetView(
      banner,
      if onMonth then Some(Minus(budget.value, expense)) else None,
      onMonth && Greater(expense, budget.value),
      onMonth && Greater(expense, budget.value))
  }

  /** The warning appears exactly when the remaining amount shown is negative. */
  lemma WarningIffOverspent(budget: Option<Number>, key: string, expense: Number)
    ensures EvaluateBudget(budget, key, expense).warning <==>
      (var r := EvaluateBudget(budget, key, expense).remaining;
       r.Some? && r.value.Some? && r.value.value < 0.0)
  {
  }

  /** Spending exactly the budget is not exceeding it. */
  lemma SpendingExactlyBudgetIsNotExceeded(b: real, key: string)
    ensures !EvaluateBudget(Some(Some(b)), key, Some(b)).warning
  {
  }

  /** Corrected: a budget of 0 (or NaN) is falsy, so the dashboard shows nothing of it, as with no budget. */
  lemma FalsyBudgetIsNoBudget(n: Number, key: string, expense: Number)
    requires !Truthy(n)
    ensures EvaluateBudget(Some(n), key, expense) == EvaluateBudget(None, key, expense)
    ensures EvaluateBudget(None, key, expense) == BudgetView(false, None, false, false)
  {
  }

  /**
   * A stored budget of `"0"` loads as the number 0: no banner is shown, and as written
   * both budget children render that bare 0.
   */
  lemma StoredZeroBudgetHidden(store: Store, key: string, expense: Number)
    requires Get(store, BudgetKey) == Some("0")
    ensures LoadBudget(store) == Some(Some(0.0))
    ensures !EvaluateBudget(LoadBudget(store), key, expense).banner
    ensures BudgetChildren(LoadBudget(store), key, expense) == (BareNumber(Some(0.0)), BareNumber(Some(0.0)))
  {
    ParseNatText(0);
    assert NatText(0) == "0";
  }

  /**
   * What a child `{operand && (<View>…</View>)}` of the dashboard's scroll view renders:
   * nothing for `null` or `false`, the element, or a falsy number (0 or NaN) as bare text,
   * which React Native does not accept outside a `<Text>`.
   */
  datatype Child = Nothing | Element | BareNumber(n: Number)

  /**
   * The two budget children as written: `monthlyBudget && (banner)` and
   * `monthlyBudget && selectedFilter === 'month' && expenseTotal > monthlyBudget && (warning)`.
   */
  function BudgetChildren(budget: Option<Number>, key: string, expense: Number): (r: (Child, Child))
    ensures r.0 == Element <==> BudgetSet(budget)
    ensures r.0 == Nothing <==> budget.None?
    ensures r.0.BareNumber? <==> budget.Some? && !Truthy(budget.value)
    ensures r.0.BareNumber? ==> r.0.n == budget.value && r.1 == r.0
    ensures r.1 == Element <==> BudgetSet(budget) && key == "month" && Greater(expense, budget.value)
  {
    match budget
    case None => (Nothing, Nothing)
    case Some(n) =>
      if !Truthy(n) then (BareNumber(n), BareNumber(n))
      else (Element, if key == "month" && Greater(expense, n) then Element else Nothing)
  }

  /**
   * The children as written show the banner and the warning exactly when the corrected view
   * does; they differ only in the bare number a falsy budget leaves behind.
   */
  lemma ChildrenAgreeWithView(budget: Option<Number>, key: string, expense: Number)
    ensures BudgetChildren(budget, key, expense).0 == Element <==> EvaluateBudget(budget, key, expense).banner
    ensures BudgetChildren(budget, key, expense).1 == Element <==> EvaluateBudget(budget, key, expense).warning
    ensures BudgetChildren(budget, key, expense).0.BareNumber? <==> budget.Some? && !BudgetSet(budget)
  {
  }

  /** As written, a budget of 0 leaves a bare `0` in both budget places of the scroll view. */
  lemma ZeroBudgetRendersBareZero(key: string, expense: Number)
    ensures BudgetChildren(Some(Some(0.0)), key, expense) == (BareNumber(Some(0.0)), BareNumber(Some(0.0)))
    ensures EvaluateBudget(Some(Some(0.0)), key, expense) == BudgetView(false, None, false, false)
  {
  }

  /** `filteredTransactions.slice(0, 10)`: the first ten, or all when there are fewer. */
  function Recent(filtered: seq<Tx>): (r: seq<Tx>)
    ensures |r| == if |filtered| < 10 then |filtered| else 10
    ensures forall i :: 0 <= i < |r| ==> r[i] == filtered[i]
    ensures Subseq(r, filtered)
  {
    Take(filtered, 10)
  }

  /**
   * The list arrives newest first, so once ten transactions are in, older ones never reach
   * the recent list; and the recent list is its own recent list.
   */
  lemma RecentIgnoresOlder(newer: seq<Tx>, older: seq<Tx>)
    requires |newer| >= 10
    ensures Recent(newer + older) == Recent(newer)
    ensures Recent(Recent(newer + older)) == Recent(newer + older)
  {
    assert Recent(newer + older) == (newer + older)[..10];
    assert Recent(newer) == newer[..10];
  }

  /** Everything the dashboard computes from the transactions, the loaded budget and the clock. */
  datatype HomeView = HomeView(
    filtered: seq<Tx>, income: Number, expense: Number, budget: BudgetView, recent: seq<Tx>)

  function Dashboard(txs: seq<Tx>, budget: Option<Number>, key: string, clock: Clock): (v: HomeView)
    ensures Subseq(v.filtered, txs)
    ensures forall tx :: tx in txs ==> (tx in v.filtered <==> InPeriod(key, clock, tx.date))
    ensures v.income == TotalOf(v.filtered, Income) && v.expense == TotalOf(v.filtered, Expense)
    ensures v.budget.banner <==> BudgetSet(budget)
    ensures v.budget.remaining.Some? <==> BudgetSet(budget) && key == "month"
    ensures v.budget.remaining.Some? ==> v.budget.remaining.value == Minus(budget.value, v.expense)
    ensures v.budget.remainingRed <==> v.budget.remaining.Some? && Greater(v.expense, budget.value)
    ensures v.budget.warning <==> key == "month" && BudgetSet(budget) && Greater(v.expense, budget.value)
    ensures v.budget == EvaluateBudget(budget, key, v.expense)
    ensures forall tx :: multiset(v.filtered)[tx] == if InPeriod(key, clock, tx.date) then multiset(txs)[tx] else 0
    ensures |v.recent| == if |v.filtered| < 10 then |v.filtered| else 10
    ensures forall i :: 0 <= i < |v.recent| ==> v.recent[i] == v.filtered[i]
  {
    var filtered := FilterByPeriod(txs, key, clock);
    var expense := TotalOf(filtered, Expense);
    HomeView(filtered, TotalOf(filtered, Income), expense,
             EvaluateBudget(budget, key, expense), Recent(filtered))
  }

  /**
   * On the month filter with a truthy budget, the remaining amount is the budget less the
   * expense total of this month's transactions, and it is red exactly when that total is over.
   */
  lemma MonthRemainingIsBudgetLessSpent(txs: seq<Tx>, budget: Option<Number>, clock: Clock)
    requires BudgetSet(budget)
    ensures Dashboard(txs, budget, "month", clock).budget.remaining
      == Some(Minus(budget.value, TotalOf(FilterByPeriod(txs, "month", clock), Expense)))
    ensures Dashboard(txs, budget, "month", clock).budget.remainingRed
      <==> Greater(TotalOf(FilterByPeriod(txs, "month", clock), Expense), budget.value)
  {
  }

  /** With no transaction in the period both cards show 0. */
  lemma EmptyPeriodTotalsZero(txs: seq<Tx>, budget: Option<Number>, key: string, clock: Clock)
    requires forall tx :: tx in txs ==> !InPeriod(key, clock, tx.date)
    ensures Dashboard(txs, budget, key, clock).filtered == []
    ensures Dashboard(txs, budget, key, clock).income == Some(0.0)
    ensures Dashboard(txs, budget, key, clock).expense == Some(0.0)
  {
  }
}

=== FILE: jsnumber.dfy ===
/**
 * The JavaScript number conversions the screens rely on, over exact reals:
 * `parseFloat`, the `isNaN(Number(s))` test, and the `toFixed` display of amounts.
 */
module JsNumber {
  import opened Wrappers
  import opened Text

  predicate IsDigit(c: char) {
    '0' <= c <= '9'
  }

  predicate AllDigits(s: string) {
    forall i :: 0 <= i < |s| ==> IsDigit(s[i])
  }

  function DigitValue(c: char): (d: nat)
    requires IsDigit(c)
    ensures d < 10
  {
    c as int - '0' as int
  }

  function DigitChar(d: nat): (c: char)
    requires d < 10
    ensures IsDigit(c) && DigitValue(c) == d
  {
    (d + '0' as int) as char
  }

  function Pow10(n: nat): (p: nat)
    ensures p >= 1
  {
    if n == 0 then 1 else 10 * Pow10(n - 1)
  }

  /** The longest prefix of `s` made of decimal digits. */
  function LeadingDigits(s: string): (r: string)
    ensures |r| <= |s| && r == s[..|r|]
    ensures AllDigits(r)
    ensures |r| < |s| ==> !IsDigit(s[|r|])
  {
    if |s| > 0 && IsDigit(s[0]) then [s[0]] + LeadingDigits(s[1..]) else ""
  }

  /** The natural number a digit string denotes. */
  function DigitsValue(ds: string): nat
    requires AllDigits(ds)
  {
    if |ds| == 0 then 0 else 10 * DigitsValue(ds[..|ds| - 1]) + DigitValue(ds[|ds| - 1])
  }

  /** A leading sign, if any, and what follows it. */
  function StripSign(s: string): (bool, string) {
    if |s| > 0 && (s[0] == '-' || s[0] == '+') then (s[0] == '-', s[1..]) else (false, s)
  }

  /** An unsigned decimal cut into its integer digits, its fraction digits and whatever follows. */
  datatype DecimalParts = DecimalParts(whole: string, fraction: string, tail: string)

  function SplitDecimal(u: string): (r: DecimalParts)
    ensures AllDigits(r.whole) && AllDigits(r.fraction)
  {
    var whole := LeadingDigits(u);
    var rest := u[|whole|..];
    if |rest| > 0 && rest[0] == '.' then
      var fraction := LeadingDigits(rest[1..]);
      DecimalParts(whole, fraction, rest[1 + |fraction|..])
    else
      DecimalParts(whole, "", rest)
  }

  /** The exponent introduced by `e`/`E`, or 0 when `tail` does not start with a complete one. */
  function ExponentOf(tail: string): int {
    if |tail| > 0 && (tail[0] == 'e' || tail[0] == 'E') then
      var (negative, unsigned) := StripSign(tail[1..]);
      var ds := LeadingDigits(unsigned);
      if |ds| == 0 then 0 else if negative then -(DigitsValue(ds) as int) else DigitsValue(ds)
    else 0
  }

  function Scale(m: real, e: int): real {
    if e >= 0 then m * Pow10(e) as real else m / Pow10(-e) as real
  }

  /**
   * `parseFloat(s)`: skip leading white space, read the longest prefix that is a signed
   * decimal with optional exponent, and give `None` (JavaScript's NaN) when there is none.
   */
  function ParseFloat(s: string): Option<real> {
    ParseSigned(TrimStart(s))
  }

  function ParseSigned(t: string): Option<real> {
    var (negative, u) := StripSign(t);
    match ReadDecimal(SplitDecimal(u))
    case Some(v) => Some(if negative then -v else v)
    case None => None
  }

  /** The value of an unsigned decimal prefix; `None` when it has no digit at all. */
  function ReadDecimal(p: DecimalParts): Option<real>
    requires AllDigits(p.whole) && AllDigits(p.fraction)
  {
    if |p.whole| == 0 && |p.fraction| == 0 then None
    else Some(Scale(Mantissa(p.whole, p.fraction), ExponentOf(p.tail)))
  }

  /** The number `a.b` denotes for digit strings `a` and `b`. */
  function Mantissa(a: string, b: string): real
    requires AllDigits(a) && AllDigits(b)
  {
    DigitsValue(a) as real + DigitsValue(b) as real / Pow10(|b|) as real
  }

  predicate IsHexDigit(c: char) {
    IsDigit(c) || 'a' <= c <= 'f' || 'A' <= c <= 'F'
  }

  predicate IsExponentPart(tail: string) {
    && |tail| > 1
    && (tail[0] == 'e' || tail[0] == 'E')
    && var (_, ds) := StripSign(tail[1..]);
       |ds| > 0 && AllDigits(ds)
  }

  /** A whole string of the StrDecimalLiteral grammar: signed `Infinity` or a decimal with optional exponent. */
  predicate IsDecimalLiteral(t: string) {
    var (_, u) := StripSign(t);
    || u == "Infinity"
    || (var p := SplitDecimal(u);
        && (|p.whole| > 0 || |p.fraction| > 0)
        && (p.tail == "" || IsExponentPart(p.tail)))
  }

  /** An unsigned hexadecimal, octal or binary literal with its `0x`, `0o` or `0b` prefix. */
  predicate IsRadixLiteral(t: string) {
    && |t| > 2
    && t[0] == '0'
    && var ds := t[2..];
       || ((t[1] == 'x' || t[1] == 'X') && forall i :: 0 <= i < |ds| ==> IsHexDigit(ds[i]))
       || ((t[1] == 'o' || t[1] == 'O') && forall i :: 0 <= i < |ds| ==> '0' <= ds[i] <= '7')
       || ((t[1] == 'b' || t[1] == 'B') && forall i :: 0 <= i < |ds| ==> ds[i] == '0' || ds[i] == '1')
  }

  /**
   * `!isNaN(s)`: the Number coercion of `s` is not NaN. After trimming, the empty string
   * converts to 0, and otherwise the whole string must be a numeric literal.
   */
  predicate IsNumeric(s: string) {
    var t := Trim(s);
    |t| == 0 || IsDecimalLiteral(t) || IsRadixLiteral(t)
  }

  /** `x % 1 === 0`. */
  predicate IsIntegral(x: real) {
    x.Floor as real == x
  }

  /** The decimal text of `n`, without leading zeros (`String(n)`). */
  function NatText(n: nat): (r: string)
    ensures |r| > 0 && AllDigits(r)
    ensures DigitsValue(r) == n
  {
    if n < 10 then [DigitChar(n)]
    else
      var r := NatText(n / 10) + [DigitChar(n % 10)];
      assert r[..|r| - 1] == NatText(n / 10);
      r
  }

  function Zeros(k: nat): (r: string)
    ensures |r| == k && AllDigits(r)
    ensures forall i :: 0 <= i < k ==> r[i] == '0'
  {
    seq(k, i => '0')
  }

  function Magnitude(x: real): (m: real)
    ensures m >= 0.0 && (m == x || m == -x)
  {
    if x < 0.0 then -x else x
  }

  /** The integer nearest to `y`, halves rounded up. */
  function RoundHalfUp(y: real): nat
    requires y >= 0.0
  {
    (y + 0.5).Floor
  }

  /** The digits of `n / 10^f` with `f` decimals, padded so that a digit precedes the point. */
  function FixedDigits(n: nat, f: nat): string {
    var m := NatText(n);
    var padded := if |m| <= f then Zeros(f + 1 - |m|) + m else m;
    if f == 0 then padded else padded[..|padded| - f] + "." + padded[|padded| - f..]
  }

  /**
   * `x.toFixed(f)`: the magnitude rounded to `f` decimals (halves away from zero),
   * with `-` in front of a negative `x`.
   */
  function ToFixed(x: real, f: nat): string {
    SignedText(x < 0.0, FixedDigits(RoundHalfUp(Magnitude(x) * Pow10(f) as real), f))
  }

  /** `body`, with a minus sign in front when `negative`. */
  function SignedText(negative: bool, body: string): string {
    if negative then "-" + body else body
  }

  function SignedValue(negative: bool, v: real): real {
    if negative then -v else v
  }

  /** The text `a.b`, or just `a` when there are no fraction digits. */
  function PointText(a: string, b: string): string {
    if |b| == 0 then a else a + "." + b
  }

  /** Number of decimals the amount display uses: none for whole amounts, two otherwise. */
  function DecimalPlaces(x: real): (d: nat)
    ensures d == 0 <==> IsIntegral(x)
    ensures d == 0 || d == 2
  {
    if IsIntegral(x) then 0 else 2
  }

  /** `formatAmount`: `x % 1 === 0 ? x.toFixed(0) : x.toFixed(2)`. */
  function FormatAmount(x: real): string {
    ToFixed(x, DecimalPlaces(x))
  }

  /** `formatAmount(n)` for any number: NaN fails the `% 1 === 0` test and `toFixed` writes it as `NaN`. */
  function FormatNumber(n: Option<real>): string {
    match n
    case Some(v) => FormatAmount(v)
    case None => "NaN"
  }

  /** The list screen's `formatAmount(amount)`: `parseFloat` first, then the same display. */
  function FormatAmountText(s: string): string {
    FormatNumber(ParseFloat(s))
  }

  // ---------------------------------------------------------------------------
  // Facts about the digit functions

  lemma {:induction false} LeadingDigitsOfDigits(a: string, b: string)
    requires AllDigits(a)
    requires |b| == 0 || !IsDigit(b[0])
    ensures LeadingDigits(a + b) == a
    decreases |a|
  {
    if |a| > 0 {
      assert (a + b)[1..] == a[1..] + b;
      LeadingDigitsOfDigits(a[1..], b);
    }
  }

  lemma {:induction false} DigitsValueConcat(a: string, b: string)
    requires AllDigits(a) && AllDigits(b)
    ensures AllDigits(a + b)
    ensures DigitsValue(a + b) == DigitsValue(a) * Pow10(|b|) + DigitsValue(b)
    decreases |b|
  {
    if |b| == 0 {
      assert a + b == a;
    } else {
      var b' := b[..|b| - 1];
      assert (a + b)[..|a + b| - 1] == a + b';
      assert (a + b)[|a + b| - 1] == b[|b| - 1];
      DigitsValueConcat(a, b');
      var x, p, v, d := DigitsValue(a), Pow10(|b'|), DigitsValue(b'), DigitValue(b[|b| - 1]);
      assert DigitsValue(a + b) == 10 * (x * p + v) + d;
      assert Pow10(|b|) == 10 * p;
      assert DigitsValue(b) == 10 * v + d;
      ShiftProduct(x, p);
    }
  }

  lemma ShiftProduct(x: int, p: int)
    ensures 10 * (x * p) == x * (10 * p)
  {
  }

  lemma {:induction false} DigitsValueZeros(k: nat)
    ensures DigitsValue(Zeros(k)) == 0
    decreases k
  {
    if k > 0 {
      assert Zeros(k)[..k - 1] == Zeros(k - 1);
      DigitsValueZeros(k - 1);
    }
  }

  /** The split of a plain decimal `a[.b]`. */
  lemma SplitPlainDecimal(a: string, b: string)
    requires AllDigits(a) && AllDigits(b)
    ensures SplitDecimal(PointText(a, b)) == DecimalParts(a, b, "")
  {
    if |b| == 0 {
      LeadingDigitsOfDigits(a, "");
      assert a + "" == a;
    } else {
      var body := a + "." + b;
      assert body == a + ("." + b);
      LeadingDigitsOfDigits(a, "." + b);
      LeadingDigitsOfDigits(b, "");
      assert b + "" == b;
      assert body[|a|..] == "." + b;
      assert ("." + b)[1..] == b;
    }
  }

  lemma ReadPlainDecimal(a: string, b: string)
    requires |a| > 0 && AllDigits(a) && AllDigits(b)
    ensures ReadDecimal(DecimalParts(a, b, "")) == Some(Mantissa(a, b))
  {
    var m := Mantissa(a, b);
    assert ExponentOf("") == 0;
    assert Pow10(0) == 1;
    assert Scale(m, 0) == m * 1.0;
  }

  /** `parseFloat` reads a plain signed decimal `[-]a[.b]` back as the number it denotes. */
  lemma ParsePlainDecimal(negative: bool, a: string, b: string)
    requires |a| > 0 && AllDigits(a) && AllDigits(b)
    ensures ParseFloat(SignedText(negative, PointText(a, b))) == Some(SignedValue(negative, Mantissa(a, b)))
  {
    var body := PointText(a, b);
    var s := SignedText(negative, body);
    assert s[0] == '-' || IsDigit(s[0]);
    assert !IsSpace(s[0]);
    assert TrimStart(s) == s;
    assert StripSign(s) == (negative, body);
    SplitPlainDecimal(a, b);
    ReadPlainDecimal(a, b);
  }

  /** A plain unsigned decimal `a[.b]` passes the `!isNaN` test. */
  lemma PlainDecimalIsNumeric(a: string, b: string)
    requires |a| > 0 && AllDigits(a) && AllDigits(b)
    ensures IsNumeric(PointText(a, b))
  {
    var s := PointText(a, b);
    assert s[0] == a[0] && IsDigit(s[0]) && !IsSpace(s[0]);
    assert TrimStart(s) == s;
    assert IsDigit(s[|s| - 1]) && !IsSpace(s[|s| - 1]);
    assert Trim(s) == s;
    assert StripSign(s) == (false, s);
    SplitPlainDecimal(a, b);
  }

  /** A non-empty digit string passes the `!isNaN` test. */
  lemma DigitsAreNumeric(s: string)
    requires |s| > 0 && AllDigits(s)
    ensures IsNumeric(s)
  {
    PlainDecimalIsNumeric(s, "");
    assert PointText(s, "") == s;
  }

  lemma MantissaWhole(a: string)
    requires AllDigits(a)
    ensures Mantissa(a, "") == DigitsValue(a) as real
  {
    assert Pow10(0) == 1;
  }

  /** `parseFloat` reads a digit string as the number it denotes. */
  lemma ParseDigits(negative: bool, m: string)
    requires |m| > 0 && AllDigits(m)
    ensures ParseFloat(SignedText(negative, m)) == Some(SignedValue(negative, DigitsValue(m) as real))
  {
    ParsePlainDecimal(negative, m, "");
    assert PointText(m, "") == m;
    MantissaWhole(m);
  }

  /** `parseFloat(String(n))` is `n`. */
  lemma ParseNatText(n: nat)
    ensures ParseFloat(NatText(n)) == Some(n as real)
  {
    ParseDigits(false, NatText(n));
  }

  /** Leading white space never changes what `parseFloat` reads. */
  lemma ParseSkipsLeadingSpace(c: char, s: string)
    requires IsSpace(c)
    ensures ParseFloat([c] + s) == ParseFloat(s)
  {
    assert ([c] + s)[1..] == s;
    assert TrimStart([c] + s) == TrimStart(s);
  }

  /** The two-decimal digits of `n / 100`: integer digits, a point, and two fraction digits. */
  lemma CentsDigits(n: nat) returns (a: string, b: string)
    ensures |a| > 0 && AllDigits(a) && |b| == 2 && AllDigits(b)
    ensures FixedDigits(n, 2) == PointText(a, b)
    ensures 100 * DigitsValue(a) + DigitsValue(b) == n
  {
    var m := NatText(n);
    var padded := if |m| <= 2 then Zeros(3 - |m|) + m else m;
    assert AllDigits(padded) && |padded| >= 3;
    assert DigitsValue(padded) == n by {
      if |m| <= 2 {
        DigitsValueConcat(Zeros(3 - |m|), m);
        DigitsValueZeros(3 - |m|);
      }
    }
    a := padded[..|padded| - 2];
    b := padded[|padded| - 2..];
    assert padded == a + b;
    DigitsValueConcat(a, b);
    assert Pow10(|b|) == 100;
  }

  lemma MantissaCents(a: string, b: string, n: nat, q: real)
    requires AllDigits(a) && AllDigits(b) && |b| == 2
    requires 100 * DigitsValue(a) + DigitsValue(b) == n
    requires 100.0 * q == n as real
    ensures Mantissa(a, b) == q
  {
    assert Pow10(|b|) == 100;
    var p, r := DigitsValue(a), DigitsValue(b);
    assert n as real == 100.0 * p as real + r as real;
  }

  /** Equal bodies parse alike (stated over plain variables, so that callers need not unfold anything). */
  lemma ParseSameBody(negative: bool, x: string, y: string, v: Option<real>)
    requires x == y && ParseFloat(SignedText(negative, y)) == v
    ensures ParseFloat(SignedText(negative, x)) == v
  {
  }

  /** `parseFloat` reads back the text `toFixed(0)` writes for a whole magnitude `n`. */
  lemma ParseWholeFixed(negative: bool, n: nat)
    ensures ParseFloat(SignedText(negative, FixedDigits(n, 0))) == Some(SignedValue(negative, n as real))
  {
    assert FixedDigits(n, 0) == NatText(n);
    ParseDigits(negative, NatText(n));
  }

  /** `parseFloat` reads back the text `toFixed(2)` writes for `n` hundredths, which is `q`. */
  lemma ParseCentsFixed(negative: bool, n: nat, q: real)
    requires 100.0 * q == n as real
    ensures ParseFloat(SignedText(negative, FixedDigits(n, 2))) == Some(SignedValue(negative, q))
  {
    var a, b := CentsDigits(n);
    ParsePlainDecimal(negative, a, b);
    MantissaCents(a, b, n, q);
    ParseSameBody(negative, FixedDigits(n, 2), PointText(a, b), Some(SignedValue(negative, Mantissa(a, b))));
  }

  lemma RoundHalfUpExact(y: real)
    requires y >= 0.0 && IsIntegral(y)
    ensures RoundHalfUp(y) as real == y
  {
    var k := y.Floor;
    var j := (y + 0.5).Floor;
    assert j as real <= y + 0.5 < j as real + 1.0;
    assert j < k + 1 && k < j + 1;
  }

  lemma IntegralMagnitude(x: real)
    requires IsIntegral(x)
    ensures IsIntegral(Magnitude(x))
  {
    if x < 0.0 {
      var k := x.Floor;
      var j := (-x).Floor;
      assert j as real <= -x < j as real + 1.0;
      assert j <= -k && -k < j + 1;
    }
  }

  lemma WholeAmountText(x: real) returns (n: nat)
    requires IsIntegral(x)
    ensures FormatAmount(x) == SignedText(x < 0.0, FixedDigits(n, 0))
    ensures SignedValue(x < 0.0, n as real) == x
  {
    assert Pow10(0) == 1;
    assert Magnitude(x) * Pow10(0) as real == Magnitude(x);
    IntegralMagnitude(x);
    RoundHalfUpExact(Magnitude(x));
    n := RoundHalfUp(Magnitude(x));
  }

  lemma ToFixedCents(x: real)
    ensures ToFixed(x, 2) == SignedText(x < 0.0, FixedDigits(RoundHalfUp(Magnitude(x) * 100.0), 2))
  {
    assert Pow10(2) == 100;
  }

  lemma CentsAmountText(x: real) returns (n: nat)
    requires !IsIntegral(x) && IsIntegral(x * 100.0)
    ensures FormatAmount(x) == SignedText(x < 0.0, FixedDigits(n, 2))
    ensures 100.0 * Magnitude(x) == n as real
  {
    var y := Magnitude(x) * 100.0;
    assert FormatAmount(x) == ToFixed(x, 2);
    ToFixedCents(x);
    IntegralMagnitude(x * 100.0);
    assert Magnitude(x * 100.0) == y;
    RoundHalfUpExact(y);
    n := RoundHalfUp(y);
  }

  /**
   * Display round trip: an amount with at most two decimals is shown by `formatAmount`
   * as text that `parseFloat` reads back as exactly that amount.
   */
  lemma FormatAmountRoundTrip(x: real)
    requires IsIntegral(x * 100.0)
    ensures ParseFloat(FormatAmount(x)) == Some(x)
  {
    if IsIntegral(x) {
      var n := WholeAmountText(x);
      ParseWholeFixed(x < 0.0, n);
    } else {
      var n := CentsAmountText(x);
      ParseCentsFixed(x < 0.0, n, Magnitude(x));
    }
  }

  /** Cutting a digit string `f` places from its end and putting a point there. */
  lemma PointShape(padded: string, f: nat)
    requires AllDigits(padded) && |padded| >= f + 1
    ensures var r := padded[..|padded| - f] + "." + padded[|padded| - f..];
            && |r| >= f + 2 && r[|r| - f - 1] == '.'
            && AllDigits(r[..|r| - f - 1]) && AllDigits(r[|r| - f..])
  {
    var r := padded[..|padded| - f] + "." + padded[|padded| - f..];
    assert r[..|r| - f - 1] == padded[..|padded| - f];
    assert r[|r| - f..] == padded[|padded| - f..];
  }

  /** The digits `toFixed` writes: only digits for no decimals, and `f` digits after a point otherwise. */
  lemma FixedDigitsShape(n: nat, f: nat)
    ensures f == 0 ==> |FixedDigits(n, f)| > 0 && AllDigits(FixedDigits(n, f))
    ensures f > 0 ==> var r := FixedDigits(n, f);
                      && |r| >= f + 2 && r[|r| - f - 1] == '.'
                      && AllDigits(r[..|r| - f - 1]) && AllDigits(r[|r| - f..])
  {
    var m := NatText(n);
    var padded := if |m| <= f then Zeros(f + 1 - |m|) + m else m;
    assert AllDigits(padded) && |padded| >= f + 1;
    if f > 0 {
      PointShape(padded, f);
    }
  }

  /**
   * The shape of an amount's text: a leading `-` exactly when negative; for a whole amount
   * no decimal point at all, otherwise a point followed by exactly two digits at the end.
   */
  predicate AmountShape(s: string, negative: bool, whole: bool) {
    && |s| > 0 && (s[0] == '-' <==> negative)
    && (whole ==> forall i :: 0 <= i < |s| ==> s[i] != '.')
    && (!whole ==> |s| >= 4 && s[|s| - 3] == '.' && IsDigit(s[|s| - 2]) && IsDigit(s[|s| - 1]))
  }

  /** `body` as `toFixed` writes it, with its optional sign, has the shape of an amount. */
  lemma SignedShape(negative: bool, body: string, f: nat)
    requires f == 0 || f == 2
    requires f == 0 ==> |body| > 0 && AllDigits(body)
    requires f > 0 ==> && |body| >= f + 2 && body[|body| - f - 1] == '.'
                       && AllDigits(body[..|body| - f - 1]) && AllDigits(body[|body| - f..])
    ensures AmountShape(SignedText(negative, body), negative, f == 0)
  {
    var s := SignedText(negative, body);
    var k := |s| - |body|;
    assert s[k..] == body;
    if f == 0 {
      forall i | 0 <= i < |s| ensures s[i] != '.' {
        if i >= k {
          assert s[i] == body[i - k];
        }
      }
    } else {
      assert IsDigit(body[..|body| - f - 1][0]);
      assert body[|body| - 2..][0] == s[|s| - 2] && body[|body| - 2..][1] == s[|s| - 1];
      assert s[|s| - 3] == body[|body| - 3];
    }
  }

  /** The whole-amount case of `FormatAmountShape`. */
  lemma WholeAmountShape(x: real)
    requires IsIntegral(x)
    ensures AmountShape(FormatAmount(x), x < 0.0, true)
  {
    var n := WholeAmountText(x);
    FixedDigitsShape(n, 0);
    SignedShape(x < 0.0, FixedDigits(n, 0), 0);
  }

  /** The two-decimal case of `FormatAmountShape`. */
  lemma FractionAmountShape(x: real)
    requires !IsIntegral(x)
    ensures AmountShape(FormatAmount(x), x < 0.0, false)
  {
    var n := RoundHalfUp(Magnitude(x) * 100.0);
    var body := FixedDigits(n, 2);
    assert FormatAmount(x) == SignedText(x < 0.0, body) by {
      ToFixedCents(x);
    }
    FixedDigitsShape(n, 2);
    SignedShape(x < 0.0, body, 2);
  }

  /** `formatAmount` writes a whole amount with no decimal point and any other with two decimals. */
  lemma FormatAmountShape(x: real)
    ensures AmountShape(FormatAmount(x), x < 0.0, IsIntegral(x))
  {
    if IsIntegral(x) {
      WholeAmountShape(x);
    } else {
      FractionAmountShape(x);
    }
  }
}

=== FILE: launch.dfy ===
/** `checkInitialRoute`: the screen the app opens on, and the first-launch mark it leaves behind. */
module Launch {
  import opened Wrappers
  import opened Prefs
  import opened Settings

  datatype Route = Welcome | Pin | Main

  /** The route chosen and the store after the check. */
  datatype LaunchStep = LaunchStep(route: Route, store: Store)

  /**
   * A first launch (no `isFirstTime` at all) opens the welcome screen and marks the store;
   * later launches open the PIN screen when a truthy PIN is stored, and the main tabs otherwise.
   */
  function CheckInitialRoute(store: Store): (r: LaunchStep)
    ensures r.route == Welcome <==> Get(store, FirstTimeKey) == None
    ensures r.route == Pin <==> Get(store, FirstTimeKey).Some? && Filled(Get(store, PinKey))
    ensures r.route == Welcome ==> Get(r.store, FirstTimeKey) == Some("false") && AgreeExcept(store, r.store, {FirstTimeKey})
    ensures r.route != Welcome ==> r.store == store
  {
    if Get(store, FirstTimeKey) == None then LaunchStep(Welcome, Set(store, FirstTimeKey, "false"))
    else if Filled(Get(store, PinKey)) then LaunchStep(Pin, store)
    else LaunchStep(Main, store)
  }

  /** The first-launch test comes first: a first launch opens the welcome screen even with a PIN stored. */
  lemma FirstLaunchIgnoresPin(store: Store)
    requires Get(store, FirstTimeKey) == None && Filled(Get(store, PinKey))
    ensures CheckInitialRoute(store).route == Welcome
  {
  }

  /** The launch after any launch never opens the welcome screen; it opens the PIN screen exactly when a PIN is set. */
  lemma SecondLaunchNeverWelcome(store: Store)
    ensures CheckInitialRoute(CheckInitialRoute(store).store).route != Welcome
    ensures CheckInitialRoute(CheckInitialRoute(store).store).route == Pin <==> Filled(Get(store, PinKey))
  {
  }

  /** After the first launch, saving a four-digit PIN in the settings makes the next launch ask for it. */
  lemma LaunchAfterSetPin(store: Store, v: SettingsView)
    requires Get(store, FirstTimeKey).Some? && DigitPinAccepted(v.pin)
    ensures CheckInitialRoute(SetDigitPin(store, v).store).route == Pin
  {
  }

  /** After the first launch, removing the PIN makes the next launch open the main tabs. */
  lemma LaunchAfterRemovePin(store: Store, v: SettingsView)
    requires Get(store, FirstTimeKey).Some?
    ensures CheckInitialRoute(RemovePin(store, v).store).route == Main
  {
  }

  /**
   * Resetting all data navigates to Welcome and clears the first-launch mark, so the next
   * launch opens Welcome as well.
   */
  lemma LaunchAfterReset(store: Store)
    ensures ResetData(store).goTo == ToWelcome
    ensures CheckInitialRoute(ResetData(store).store).route == Welcome
  {
    assert FirstTimeKey != EmailKey;
  }
}

=== FILE: numbers.dfy ===
/**
 * JavaScript number arithmetic over exact reals, with `None` standing for NaN.
 * Infinities and rounding are not modelled.
 */
module Numbers {
  import opened Wrappers

  /** A JavaScript number: `Some(v)` for a finite value, `None` for NaN. */
  type Number = Option<real>

  /** `a + b`: NaN as soon as either side is. */
  function Plus(a: Number, b: Number): (r: Number)
    ensures r.Some? <==> a.Some? && b.Some?
  {
    if a.Some? && b.Some? then Some(a.value + b.value) else None
  }

  /** `a - b`. */
  function Minus(a: Number, b: Number): (r: Number)
    ensures r.Some? <==> a.Some? && b.Some?
  {
    if a.Some? && b.Some? then Some(a.value - b.value) else None
  }

  /** `a > b`: every comparison with NaN is false. */
  predicate Greater(a: Number, b: Number) {
    a.Some? && b.Some? && a.value > b.value
  }

  /** `a >= b`. */
  predicate AtLeast(a: Number, b: Number) {
    a.Some? && b.Some? && a.value >= b.value
  }

  /** `a === b`: NaN equals nothing, not even NaN. */
  predicate Same(a: Number, b: Number) {
    a.Some? && b.Some? && a.value == b.value
  }

  /** A number in a condition: 0 and NaN are falsy. */
  predicate Truthy(a: Number) {
    a.Some? && a.value != 0.0
  }

  /** `a || b` on numbers. */
  function Or(a: Number, b: Number): (r: Number)
    ensures Truthy(a) ==> r == a
    ensures !Truthy(a) ==> r == b
  {
    if Truthy(a) then a else b
  }

  /** Addition of numbers is associative, NaN included. */
  lemma PlusAssoc(a: Number, b: Number, c: Number)
    ensures Plus(Plus(a, b), c) == Plus(a, Plus(b, c))
  {
  }

  /** Addition of numbers is commutative, NaN included. */
  lemma PlusComm(a: Number, b: Number)
    ensures Plus(a, b) == Plus(b, a)
  {
  }

  /** 0 is neutral for finite numbers and for NaN alike. */
  lemma PlusZero(a: Number)
    ensures Plus(a, Some(0.0)) == a && Plus(Some(0.0), a) == a
  {
  }

  /** `xs.reduce((a, b) => a + b, 0)`. */
  function SumAll(xs: seq<Number>): (r: Number)
    ensures r.Some? <==> forall i :: 0 <= i < |xs| ==> xs[i].Some?
    ensures |xs| == 0 ==> r == Some(0.0)
    decreases |xs|
  {
    if |xs| == 0 then Some(0.0)
    else
      var init := xs[..|xs| - 1];
      assert forall i :: 0 <= i < |init| ==> init[i] == xs[i];
      Plus(SumAll(init), xs[|xs| - 1])
  }

  /** Adding `x` to one element adds `x` to the sum. */
  lemma {:induction false} SumAllBump(xs: seq<Number>, j: nat, x: Number)
    requires j < |xs|
    ensures SumAll(xs[j := Plus(xs[j], x)]) == Plus(SumAll(xs), x)
    decreases |xs|
  {
    var ys := xs[j := Plus(xs[j], x)];
    var init := xs[..|xs| - 1];
    var last := xs[|xs| - 1];
    if j == |xs| - 1 {
      assert ys[..|ys| - 1] == init;
      PlusAssoc(SumAll(init), last, x);
    } else {
      assert ys[..|ys| - 1] == init[j := Plus(init[j], x)];
      SumAllBump(init, j, x);
      PlusAssoc(SumAll(init), x, last);
      PlusComm(x, last);
      PlusAssoc(SumAll(init), last, x);
    }
  }

  /** Appending one number adds it to the sum. */
  lemma SumAllSnoc(xs: seq<Number>, x: Number)
    ensures SumAll(xs + [x]) == Plus(SumAll(xs), x)
  {
    assert (xs + [x])[..|xs|] == xs;
  }

  /** A run of zeros sums to zero. */
  lemma {:induction false} SumAllZeros(n: nat)
    ensures SumAll(seq(n, _ => Some(0.0))) == Some(0.0)
  {
    if n > 0 {
      assert seq(n, _ => Some(0.0))[..n - 1] == seq(n - 1, _ => Some(0.0));
      SumAllZeros(n - 1);
    }
  }
}

=== FILE: pinlock.dfy ===
/** The PIN screen: the entered PIN, its error line, and the unlock test against the stored PIN. */
module PinLock {
  import opened Wrappers
  import opened Prefs
  import opened Settings

  /** The translation key of the error shown after a wrong PIN. */
  const IncorrectPin := "incorrectPin"

  /** The text typed so far and the error line (`''` when none). */
  datatype PinState = PinState(entry: string, error: string)

  const InitialPinState := PinState("", "")

  /** The outcome of Unlock: whether the app moves on to the main tabs, and the screen state after. */
  datatype UnlockStep = UnlockStep(toMain: bool, state: PinState)

  /** `handleUnlock`: the entry must be strictly equal to the stored PIN, which a missing PIN (`null`) never is. */
  function HandleUnlock(s: PinState, store: Store): (r: UnlockStep)
    ensures r.toMain <==> Get(store, PinKey) == Some(s.entry)
    ensures r.toMain ==> r.state == s
    ensures !r.toMain ==> r.state == s.(error := IncorrectPin)
  {
    if Get(store, PinKey) == Some(s.entry) then UnlockStep(true, s)
    else UnlockStep(false, s.(error := IncorrectPin))
  }

  /** `onChangeText`: take the new text and clear the error. */
  function OnPinTextChange(s: PinState, text: string): (r: PinState)
    ensures r.entry == text && r.error == ""
  {
    PinState(text, "")
  }

  /** With no PIN stored, no entry unlocks, however often Unlock is pressed. */
  lemma NoStoredPinNeverUnlocks(s: PinState, store: Store)
    requires PinKey !in store
    ensures !HandleUnlock(s, store).toMain
    ensures HandleUnlock(HandleUnlock(s, store).state, store) == HandleUnlock(s, store)
  {
  }

  /** A failed attempt keeps the entry, and typing afterwards clears the error it set. */
  lemma TypingClearsError(s: PinState, store: Store, text: string)
    ensures HandleUnlock(s, store).state.entry == s.entry
    ensures OnPinTextChange(HandleUnlock(s, store).state, text) == PinState(text, "")
  {
  }

  /** After the settings save a four-digit PIN, exactly that entry unlocks. */
  lemma SavedPinUnlocks(store: Store, v: SettingsView, s: PinState)
    requires DigitPinAccepted(v.pin)
    ensures HandleUnlock(s, SetDigitPin(store, v).store).toMain <==> s.entry == v.pin
  {
  }

  /** After the settings remove the PIN, nothing unlocks. */
  lemma RemovedPinLocksOut(store: Store, v: SettingsView, s: PinState)
    ensures !HandleUnlock(s, RemovePin(store, v).store).toMain
  {
  }
}

=== FILE: prefs.dfy ===
/**
 * The device preference store (AsyncStorage) as a synchronous map from keys to strings,
 * the keys the app uses, and the transaction-owner fallback derived from it.
 */
module Prefs {
  import opened Wrappers

  type Store = map<string, string>

  const EmailKey := "email"
  const BudgetKey := "monthly_budget"
  const PinKey := "user_pin"
  const NotificationsKey := "notifications_enabled"
  const LanguageKey := "language"
  const FirstTimeKey := "isFirstTime"
  const ImageKey := "profile_image"
  const NameKey := "user_name"

  /** The owner recorded on transactions when no email is stored. */
  const GuestEmail := "guest@expensemate.com"

  /** `getItem(key)`: `null` (here `None`) when the key is absent. */
  function Get(s: Store, key: string): (r: Option<string>)
    ensures r.Some? <==> key in s
    ensures r.Some? ==> r.value == s[key]
  {
    if key in s then Some(s[key]) else None
  }

  /** A stored value in a condition: `null` and `''` are falsy. */
  predicate Filled(v: Option<string>) {
    v.Some? && v.value != ""
  }

  /** A stored value overrides a field only when it is truthy (neither absent nor `''`). */
  function Override(stored: Option<string>, current: string): (r: string)
    ensures Filled(stored) ==> r == stored.value
    ensures !Filled(stored) ==> r == current
  {
    if Filled(stored) then stored.value else current
  }

  /** `setItem(key, value)`. */
  function Set(s: Store, key: string, value: string): (r: Store)
    ensures Get(r, key) == Some(value)
    ensures AgreeExcept(s, r, {key})
  {
    s[key := value]
  }

  /** `removeItem(key)`. */
  function Remove(s: Store, key: string): (r: Store)
    ensures Get(r, key) == None
    ensures AgreeExcept(s, r, {key})
  {
    s - {key}
  }

  /** `a` and `b` hold the same value (or both nothing) under every key outside `keys`. */
  ghost predicate AgreeExcept(a: Store, b: Store, keys: set<string>) {
    forall k :: k !in keys ==> Get(a, k) == Get(b, k)
  }

  /** `email || 'guest@expensemate.com'`: the stored email when it is non-empty, the guest otherwise. */
  function OwnerOf(s: Store): (r: string)
    ensures Filled(Get(s, EmailKey)) ==> r == s[EmailKey]
    ensures !Filled(Get(s, EmailKey)) ==> r == GuestEmail
    ensures r != ""
  {
    var email := Get(s, EmailKey);
    if Filled(email) then email.value else GuestEmail
  }
}

=== FILE: profile.dfy ===
/** The profile screen: the name, email and picture it shows, the picture picker, and the profile reset. */
module Profile {
  import opened Wrappers
  import opened Prefs

  const DefaultName := "User"
  const DefaultEmail := "user@example.com"

  /** What the screen shows: the picture's URI (`null` shows the bundled avatar), the name and the email. */
  datatype ProfileView = ProfileView(image: Option<string>, name: string, email: string)

  const InitialProfile := ProfileView(None, DefaultName, DefaultEmail)

  /** `loadProfileData`: each field takes the stored value only when that value is truthy. */
  function LoadProfile(v: ProfileView, store: Store): (r: ProfileView)
    ensures r.image == if Filled(Get(store, ImageKey)) then Get(store, ImageKey) else v.image
    ensures r.name == Override(Get(store, NameKey), v.name)
    ensures r.email == Override(Get(store, EmailKey), v.email)
  {
    var image := Get(store, ImageKey);
    ProfileView(if Filled(image) then image else v.image,
                Override(Get(store, NameKey), v.name),
                Override(Get(store, EmailKey), v.email))
  }

  /** The alert a profile handler ends with, if any. */
  datatype ProfileAlert = Silent | ResetSuccess

  /** The effect of one handler: the store after it, the screen's state after it, and its alert. */
  datatype ProfileStep = ProfileStep(store: Store, view: ProfileView, alert: ProfileAlert)

  /** What the image library returns. */
  datatype PickResult = Cancelled | Picked(uri: string)

  /** `pickImage`: a picked picture is stored and shown; a cancelled pick changes nothing. */
  function PickImage(store: Store, v: ProfileView, result: PickResult): (r: ProfileStep)
    ensures result.Cancelled? ==> r == ProfileStep(store, v, Silent)
    ensures result.Picked? ==> Get(r.store, ImageKey) == Some(result.uri) && r.view == v.(image := Some(result.uri))
    ensures AgreeExcept(store, r.store, {ImageKey})
    ensures r.alert == Silent
  {
    match result
    case Cancelled => ProfileStep(store, v, Silent)
    case Picked(uri) => ProfileStep(Set(store, ImageKey, uri), v.(image := Some(uri)), Silent)
  }

  /** A picked picture is shown again the next time the screen loads, unless its URI is `''`. */
  lemma PickedImageReloads(store: Store, v: ProfileView, uri: string, w: ProfileView)
    ensures uri != "" ==> LoadProfile(w, PickImage(store, v, Picked(uri)).store).image == Some(uri)
    ensures uri == "" ==> LoadProfile(w, PickImage(store, v, Picked(uri)).store).image == w.image
  {
  }

  /**
   * The confirmed branch of `handleResetProfile`: remove the picture and the name, show the
   * defaults, and alert profileResetSuccess.
   */
  function ResetProfile(store: Store, v: ProfileView): (r: ProfileStep)
    ensures Get(r.store, ImageKey) == None && Get(r.store, NameKey) == None
    ensures AgreeExcept(store, r.store, {ImageKey, NameKey})
    ensures r.view == v.(image := None, name := DefaultName)
    ensures r.alert == ResetSuccess
  {
    ProfileStep(Remove(Remove(store, ImageKey), NameKey), v.(image := None, name := DefaultName), ResetSuccess)
  }

  /** The reset keeps the email, and the next load shows the default name and avatar with the same email as before. */
  lemma ResetThenLoad(store: Store, v: ProfileView)
    ensures Get(ResetProfile(store, v).store, EmailKey) == Get(store, EmailKey)
    ensures LoadProfile(InitialProfile, ResetProfile(store, v).store) ==
            ProfileView(None, DefaultName, LoadProfile(InitialProfile, store).email)
  {
    assert EmailKey !in {ImageKey, NameKey};
  }

  /**
   * Without a stored email the profile shows `user@example.com`, while the rows of the
   * transactions are filed under `guest@expensemate.com`.
   */
  lemma ShownEmailIsNotOwner(store: Store)
    requires !Filled(Get(store, EmailKey))
    ensures LoadProfile(InitialProfile, store).email == DefaultEmail
    ensures OwnerOf(store) == GuestEmail != DefaultEmail
  {
  }
}

=== FILE: seqs.dfy ===
/** Order-preserving subsequences and the `Array.prototype.filter` / `slice` they come from. */
module Seqs {

  /** `a` is obtained from `b` by deleting elements, keeping the rest in order. */
  ghost predicate Subseq<T>(a: seq<T>, b: seq<T>)
    decreases |b|
  {
    || |a| == 0
    || (&& |b| > 0
        && (|| (a[|a| - 1] == b[|b| - 1] && Subseq(a[..|a| - 1], b[..|b| - 1]))
            || Subseq(a, b[..|b| - 1])))
  }

  /** Every sequence is a subsequence of itself. */
  lemma {:induction false} SubseqRefl<T>(s: seq<T>)
    ensures Subseq(s, s)
    decreases |s|
  {
    if |s| > 0 {
      SubseqRefl(s[..|s| - 1]);
    }
  }

  /** Every prefix is a subsequence. */
  lemma {:induction false} PrefixSubseq<T>(s: seq<T>, n: nat)
    requires n <= |s|
    ensures Subseq(s[..n], s)
    decreases |s|
  {
    if n == |s| {
      assert s[..n] == s;
      SubseqRefl(s);
    } else {
      var init := s[..|s| - 1];
      assert init[..n] == s[..n];
      PrefixSubseq(init, n);
    }
  }

  /** `r` holds every element of `s` that passes `p` as often as `s` does, and nothing else. */
  ghost predicate KeepsPassing<T(!new)>(r: seq<T>, s: seq<T>, p: T -> bool) {
    forall x :: multiset(r)[x] == if p(x) then multiset(s)[x] else 0
  }

  /** The elements of `s` that satisfy `p`, in their original order (`s.filter(p)`). */
  function Filter<T(!new)>(s: seq<T>, p: T -> bool): (r: seq<T>)
    ensures |r| <= |s|
    ensures Subseq(r, s)
    ensures forall i :: 0 <= i < |r| ==> p(r[i]) && r[i] in s
    ensures forall x :: x in s && p(x) ==> x in r
    decreases |s|
  {
    if |s| == 0 then []
    else
      var init := s[..|s| - 1];
      var last := s[|s| - 1];
      assert s == init + [last];
      var r := Filter(init, p);
      if p(last) then
        assert (r + [last])[..|r|] == r;
        r + [last]
      else r
  }

  /** The filter keeps each passing element as often as it occurs, and nothing else. */
  lemma {:induction false} FilterCounts<T(!new)>(s: seq<T>, p: T -> bool)
    ensures KeepsPassing(Filter(s, p), s, p)
    decreases |s|
  {
    if |s| > 0 {
      var init, last := s[..|s| - 1], s[|s| - 1];
      assert s == init + [last];
      FilterCounts(init, p);
      FilterSnoc(init, last, p);
      assert multiset(s) == multiset(init) + multiset{last};
    }
  }

  /** A filter whose test every element passes returns its input unchanged. */
  lemma {:induction false} FilterAllPass<T(!new)>(s: seq<T>, p: T -> bool)
    requires forall i :: 0 <= i < |s| ==> p(s[i])
    ensures Filter(s, p) == s
    decreases |s|
  {
    if |s| > 0 {
      var init, last := s[..|s| - 1], s[|s| - 1];
      assert forall i :: 0 <= i < |init| ==> init[i] == s[i];
      FilterAllPass(init, p);
      assert s == init + [last];
      FilterSnoc(init, last, p);
    }
  }

  /** Filtering distributes over appending one element. */
  lemma FilterSnoc<T(!new)>(s: seq<T>, x: T, p: T -> bool)
    ensures Filter(s + [x], p) == Filter(s, p) + (if p(x) then [x] else [])
  {
    assert (s + [x])[..|s|] == s;
  }

  /** Filtering distributes over concatenation. */
  lemma {:induction false} FilterAppend<T(!new)>(a: seq<T>, b: seq<T>, p: T -> bool)
    ensures Filter(a + b, p) == Filter(a, p) + Filter(b, p)
    decreases |b|
  {
    if |b| == 0 {
      assert a + b == a;
    } else {
      var b' := b[..|b| - 1];
      var x := b[|b| - 1];
      assert a + b == (a + b') + [x];
      assert b == b' + [x];
      FilterAppend(a, b', p);
      FilterSnoc(a + b', x, p);
      FilterSnoc(b', x, p);
    }
  }

  /** The first `n` elements of `s`, or all of them when there are fewer (`s.slice(0, n)`). */
  function Take<T>(s: seq<T>, n: nat): (r: seq<T>)
    ensures |r| == if |s| < n then |s| else n
    ensures forall i :: 0 <= i < |r| ==> r[i] == s[i]
    ensures Subseq(r, s)
  {
    if |s| <= n then
      SubseqRefl(s);
      s
    else
      PrefixSubseq(s, n);
      s[..n]
  }
}

=== FILE: settings.dfy ===
/**
 * The settings screen as transitions of the preference store: the monthly budget, the
 * PIN, the notification switch, the language, and the reset of all data.
 */
module Settings {
  import opened Wrappers
  import opened JsNumber
  import opened Numbers
  import opened Prefs
  import opened Home

  /** The screen's own state: the two text fields, the switch and the selected language. */
  datatype SettingsView = SettingsView(budget: string, pin: string, notifications: bool, language: string)

  const InitialView := SettingsView("", "", false, "en")

  /** The alert a step ends with, if any. */
  datatype SettingsAlert =
    | NoAlert | BudgetUpdated | BudgetRemoved | PinSuccess | InvalidPin | PinRemoved
    | NotificationsEnabled | NotificationsDisabled | ProfileResetSuccess

  /** The effect of one handler: the store after it, the screen state after it, and its alert. */
  datatype Step = Step(store: Store, view: SettingsView, alert: SettingsAlert)

  /** `loadSettings`: the budget text, the switch (`=== 'true'`) and the language, each only when stored. */
  function LoadSettings(v: SettingsView, store: Store): (r: SettingsView)
    ensures r.budget == Override(Get(store, BudgetKey), v.budget)
    ensures r.notifications == if Filled(Get(store, NotificationsKey)) then store[NotificationsKey] == "true" else v.notifications
    ensures r.language == Override(Get(store, LanguageKey), v.language)
    ensures r.pin == v.pin
  {
    var flag := Get(store, NotificationsKey);
    v.(budget := Override(Get(store, BudgetKey), v.budget),
       notifications := if Filled(flag) then flag.value == "true" else v.notifications,
       language := Override(Get(store, LanguageKey), v.language))
  }

  /** Loading from an empty store leaves the screen as it opened. */
  lemma LoadFromEmptyStore()
    ensures LoadSettings(InitialView, map[]) == InitialView
  {
  }

  /** The budget text `handleSetBudget` accepts: non-empty, and `parseFloat` of it is not NaN. */
  predicate BudgetAccepted(text: string) {
    text != "" && ParseFloat(text).Some?
  }

  /** `handleSetBudget`: store the raw text when it is accepted; otherwise nothing happens, not even an alert. */
  function SetBudget(store: Store, v: SettingsView): (r: Step)
    ensures BudgetAccepted(v.budget) ==> Get(r.store, BudgetKey) == Some(v.budget) && r.alert == BudgetUpdated
    ensures AgreeExcept(store, r.store, {BudgetKey})
    ensures !BudgetAccepted(v.budget) ==> r.store == store && r.alert == NoAlert
    ensures r.view == v
  {
    if BudgetAccepted(v.budget) then Step(Set(store, BudgetKey, v.budget), v, BudgetUpdated)
    else Step(store, v, NoAlert)
  }

  /** A budget the screen saves reaches the dashboard as the number it parses to, never as NaN. */
  lemma SavedBudgetReachesDashboard(store: Store, v: SettingsView)
    requires BudgetAccepted(v.budget)
    ensures LoadBudget(SetBudget(store, v).store) == Some(ParseFloat(v.budget))
    ensures LoadBudget(SetBudget(store, v).store).value.Some?
  {
  }

  /**
   * A budget of `"0"` is accepted and saved, yet the dashboard then shows no budget banner;
   * as written it renders a bare 0 in the banner's place.
   */
  lemma ZeroBudgetSavedButHidden(store: Store, v: SettingsView, key: string, expense: Number)
    requires v.budget == "0"
    ensures SetBudget(store, v).alert == BudgetUpdated
    ensures !EvaluateBudget(LoadBudget(SetBudget(store, v).store), key, expense).banner
    ensures BudgetChildren(LoadBudget(SetBudget(store, v).store), key, expense).0 == BareNumber(Some(0.0))
  {
    ParseNatText(0);
    assert NatText(0) == "0";
    StoredZeroBudgetHidden(SetBudget(store, v).store, key, expense);
  }

  /** `handleRemoveBudget`: delete the budget and clear the field. */
  function RemoveBudget(store: Store, v: SettingsView): (r: Step)
    ensures Get(r.store, BudgetKey) == None && AgreeExcept(store, r.store, {BudgetKey})
    ensures r.view == v.(budget := "") && r.alert == BudgetRemoved
  {
    Step(Remove(store, BudgetKey), v.(budget := ""), BudgetRemoved)
  }

  /** After removal the dashboard shows no budget banner, whatever was stored before. */
  lemma RemovedBudgetHidden(store: Store, v: SettingsView, key: string, expense: Number)
    ensures LoadBudget(RemoveBudget(store, v).store) == None
    ensures EvaluateBudget(LoadBudget(RemoveBudget(store, v).store), key, expense) == BudgetView(false, None, false, false)
  {
  }

  /** The PIN test as written: four characters whose Number coercion is not NaN. */
  predicate PinAccepted(pin: string) {
    |pin| == 4 && IsNumeric(pin)
  }

  /** `handleSetPin`: store an accepted PIN and clear the field; otherwise alert and change nothing. */
  function SetPin(store: Store, v: SettingsView): (r: Step)
    ensures PinAccepted(v.pin) ==> Get(r.store, PinKey) == Some(v.pin) && r.view == v.(pin := "") && r.alert == PinSuccess
    ensures AgreeExcept(store, r.store, {PinKey})
    ensures !PinAccepted(v.pin) ==> r == Step(store, v, InvalidPin)
  {
    if PinAccepted(v.pin) then Step(Set(store, PinKey, v.pin), v.(pin := ""), PinSuccess)
    else Step(store, v, InvalidPin)
  }

  /** The test as written lets through a four-character PIN that is not four digits. */
  lemma DecimalPinAccepted(store: Store, v: SettingsView)
    requires v.pin == "1.25"
    ensures SetPin(store, v).alert == PinSuccess
    ensures Get(SetPin(store, v).store, PinKey) == Some("1.25")
  {
    PlainDecimalIsNumeric("1", "25");
    assert PointText("1", "25") == "1.25";
  }

  /** The test the field's "4-digit PIN" placeholder promises: exactly four decimal digits. */
  predicate DigitPinAccepted(pin: string) {
    |pin| == 4 && AllDigits(pin)
  }

  /** `handleSetPin` with the four-digit test. */
  function SetDigitPin(store: Store, v: SettingsView): (r: Step)
    ensures DigitPinAccepted(v.pin) ==> Get(r.store, PinKey) == Some(v.pin) && r.view == v.(pin := "") && r.alert == PinSuccess
    ensures AgreeExcept(store, r.store, {PinKey})
    ensures !DigitPinAccepted(v.pin) ==> r == Step(store, v, InvalidPin)
  {
    if DigitPinAccepted(v.pin) then Step(Set(store, PinKey, v.pin), v.(pin := ""), PinSuccess)
    else Step(store, v, InvalidPin)
  }

  /**
   * The corrected test only narrows the written one: every four-digit PIN passes both,
   * and `"1.25"` passes only the written one.
   */
  lemma DigitPinNarrowsPin(store: Store, v: SettingsView)
    ensures DigitPinAccepted(v.pin) ==> SetDigitPin(store, v) == SetPin(store, v)
    ensures v.pin == "1.25" ==> SetDigitPin(store, v).alert == InvalidPin && SetPin(store, v).alert == PinSuccess
  {
    if DigitPinAccepted(v.pin) {
      DigitsAreNumeric(v.pin);
    }
    if v.pin == "1.25" {
      DecimalPinAccepted(store, v);
      assert !IsDigit(v.pin[1]);
    }
  }

  /** `handleRemovePin`: delete the PIN. */
  function RemovePin(store: Store, v: SettingsView): (r: Step)
    ensures Get(r.store, PinKey) == None && AgreeExcept(store, r.store, {PinKey})
    ensures r.view == v && r.alert == PinRemoved
  {
    Step(Remove(store, PinKey), v, PinRemoved)
  }

  /** `toggleNotifications(value)`: set the switch and store `value.toString()`. */
  function ToggleNotifications(store: Store, v: SettingsView, value: bool): (r: Step)
    ensures Get(r.store, NotificationsKey) == Some(if value then "true" else "false")
    ensures AgreeExcept(store, r.store, {NotificationsKey})
    ensures r.view == v.(notifications := value)
    ensures r.alert == if value then NotificationsEnabled else NotificationsDisabled
  {
    Step(Set(store, NotificationsKey, if value then "true" else "false"),
         v.(notifications := value),
         if value then NotificationsEnabled else NotificationsDisabled)
  }

  /** The switch round-trips: whatever screen state loads the stored flag sees the value set. */
  lemma NotificationsRoundTrip(store: Store, v: SettingsView, value: bool, w: SettingsView)
    ensures LoadSettings(w, ToggleNotifications(store, v, value).store).notifications == value
  {
  }

  /** `changeLanguage(lang)`: store the language and select it (the translation switch itself is not modelled). */
  function ChangeLanguage(store: Store, v: SettingsView, lang: string): (r: Step)
    ensures Get(r.store, LanguageKey) == Some(lang) && AgreeExcept(store, r.store, {LanguageKey})
    ensures r.view == v.(language := lang) && r.alert == NoAlert
  {
    Step(Set(store, LanguageKey, lang), v.(language := lang), NoAlert)
  }

  /** A chosen language is what the next load selects, unless it is `''`, which loading ignores. */
  lemma LanguageRoundTrip(store: Store, v: SettingsView, lang: string, w: SettingsView)
    ensures lang != "" ==> LoadSettings(w, ChangeLanguage(store, v, lang).store).language == lang
    ensures lang == "" ==> LoadSettings(w, ChangeLanguage(store, v, lang).store).language == w.language
  {
  }

  /** Where a handler sends the navigator: nowhere, or to the welcome screen. */
  datatype Navigation = StayHere | ToWelcome

  /** The effect of the data reset: the store after it, its alert and where it navigates. */
  datatype ResetStep = ResetStep(store: Store, alert: SettingsAlert, goTo: Navigation)

  /**
   * The confirmed branch of `handleResetData`: read the email, clear the store, write the
   * email back when it was truthy, alert profileResetSuccess and navigate to Welcome.
   */
  function ResetData(store: Store): (r: ResetStep)
    ensures forall k :: k != EmailKey ==> Get(r.store, k) == None
    ensures Get(r.store, EmailKey) == if Filled(Get(store, EmailKey)) then Get(store, EmailKey) else None
    ensures r.alert == ProfileResetSuccess && r.goTo == ToWelcome
  {
    var email := Get(store, EmailKey);
    var cleared: Store := map[];
    ResetStep(if Filled(email) then Set(cleared, EmailKey, email.value) else cleared,
              ProfileResetSuccess, ToWelcome)
  }

  /** The reset keeps the owner of the transactions: the same email, or the guest as before. */
  lemma ResetKeepsOwner(store: Store)
    ensures OwnerOf(ResetData(store).store) == OwnerOf(store)
  {
  }

  /** Resetting twice is resetting once: the same store, the same alert, the same navigation. */
  lemma ResetIdempotent(store: Store)
    ensures ResetData(ResetData(store).store) == ResetData(store)
  {
    var r := ResetData(store).store;
    assert r.Keys <= {EmailKey};
    assert ResetData(r).store.Keys <= {EmailKey};
  }
}

=== FILE: statistics.dfy ===
/**
 * The weekly report: the seven-day income/expense bar series, the per-category
 * breakdown of one type over the selected week, its total and each category's share.
 */
module Statistics {
  import opened Wrappers
  import opened Seqs
  import opened Calendar
  import opened Numbers
  import opened Transactions

  // ---------------------------------------------------------------------------
  // The bar series

  /** Slot `i` of the series of type `k` collects the transactions on the day `addDays(weekStart, i)`. */
  function SlotTest(weekStart: int, i: int, k: TxType): Tx -> bool {
    (tx: Tx) => IsSameDay(tx.date, AddDays(weekStart, i)) && tx.kind == k
  }

  /** The amount slot `i` of type `k` ends with: the matching amounts added in list order from 0. */
  function SlotTotal(txs: seq<Tx>, weekStart: int, i: int, k: TxType): (r: Number)
    decreases |txs|
  {
    if |txs| == 0 then Some(0.0)
    else
      var tx := txs[|txs| - 1];
      var rest := SlotTotal(txs[..|txs| - 1], weekStart, i, k);
      if IsSameDay(tx.date, AddDays(weekStart, i)) && tx.kind == k then Plus(rest, tx.amount) else rest
  }

  /** A slot is the `filter(...).reduce(+, 0)` total of the transactions of its type on its day. */
  lemma {:induction false} SlotTotalIsFilteredSum(txs: seq<Tx>, weekStart: int, i: int, k: TxType)
    ensures SlotTotal(txs, weekStart, i, k) == Sum(Filter(txs, SlotTest(weekStart, i, k)))
    decreases |txs|
  {
    if |txs| > 0 {
      var init := txs[..|txs| - 1];
      var tx := txs[|txs| - 1];
      assert txs == init + [tx];
      SlotTotalIsFilteredSum(init, weekStart, i, k);
      var p := SlotTest(weekStart, i, k);
      FilterSnoc(init, tx, p);
      var f := Filter(init, p);
      if p(tx) {
        assert (f + [tx])[..|f|] == f;
      } else {
        assert f + [] == f;
      }
    }
  }

  /** The seven running slot totals, the form the proofs below work on. */
  function DaySlots(txs: seq<Tx>, weekStart: int, k: TxType): (r: seq<Number>)
    ensures |r| == 7
  {
    seq(7, i requires 0 <= i < 7 => SlotTotal(txs, weekStart, i, k))
  }

  /** The seven slots of type `k`, one per day from `weekStart` (a Monday) on. */
  function Slots(txs: seq<Tx>, weekStart: int, k: TxType): (r: seq<Number>)
    ensures |r| == 7
    ensures forall i :: 0 <= i < 7 ==> r[i] == Sum(Filter(txs, SlotTest(weekStart, i, k)))
  {
    var r := DaySlots(txs, weekStart, k);
    assert forall i :: 0 <= i < 7 ==> r[i] == Sum(Filter(txs, SlotTest(weekStart, i, k))) by {
      forall i | 0 <= i < 7 ensures r[i] == Sum(Filter(txs, SlotTest(weekStart, i, k))) {
        SlotTotalIsFilteredSum(txs, weekStart, i, k);
      }
    }
    r
  }

  /** One more transaction changes a slot only if it is of the slot's type and on the slot's day. */
  lemma SlotTotalSnoc(txs: seq<Tx>, tx: Tx, weekStart: int, i: int, k: TxType)
    ensures SlotTotal(txs + [tx], weekStart, i, k) ==
      if IsSameDay(tx.date, AddDays(weekStart, i)) && tx.kind == k
      then Plus(SlotTotal(txs, weekStart, i, k), tx.amount)
      else SlotTotal(txs, weekStart, i, k)
  {
    assert (txs + [tx])[..|txs|] == txs;
  }

  /** The step the series loop takes for transaction `j` and slot `i`. */
  lemma SlotStep(txs: seq<Tx>, j: int, weekStart: int, i: int, k: TxType)
    requires 0 <= j < |txs|
    ensures SlotTotal(txs[..j + 1], weekStart, i, k) ==
      if IsSameDay(txs[j].date, AddDays(weekStart, i)) && txs[j].kind == k
      then Plus(SlotTotal(txs[..j], weekStart, i, k), txs[j].amount)
      else SlotTotal(txs[..j], weekStart, i, k)
  {
    assert txs[..j + 1] == txs[..j] + [txs[j]];
    SlotTotalSnoc(txs[..j], txs[j], weekStart, i, k);
  }

  /**
   * `getWeeklyChartData` before the chart copies: for each transaction and each of the
   * seven days, add the amount to that day's income or expense slot when the days match.
   */
  method WeeklySeries(txs: seq<Tx>, weekStart: int) returns (income: seq<Number>, expense: seq<Number>)
    ensures income == Slots(txs, weekStart, Income)
    ensures expense == Slots(txs, weekStart, Expense)
  {
    income := seq(7, _ => Some(0.0));
    expense := seq(7, _ => Some(0.0));
    for j := 0 to |txs|
      invariant |income| == 7 && |expense| == 7
      invariant forall i :: 0 <= i < 7 ==> income[i] == SlotTotal(txs[..j], weekStart, i, Income)
      invariant forall i :: 0 <= i < 7 ==> expense[i] == SlotTotal(txs[..j], weekStart, i, Expense)
    {
      var tx := txs[j];
      for i := 0 to 7
        invariant |income| == 7 && |expense| == 7
        invariant forall i' :: 0 <= i' < i ==> income[i'] == SlotTotal(txs[..j + 1], weekStart, i', Income)
        invariant forall i' :: i <= i' < 7 ==> income[i'] == SlotTotal(txs[..j], weekStart, i', Income)
        invariant forall i' :: 0 <= i' < i ==> expense[i'] == SlotTotal(txs[..j + 1], weekStart, i', Expense)
        invariant forall i' :: i <= i' < 7 ==> expense[i'] == SlotTotal(txs[..j], weekStart, i', Expense)
      {
        SlotStep(txs, j, weekStart, i, Income);
        SlotStep(txs, j, weekStart, i, Expense);
        if IsSameDay(tx.date, AddDays(weekStart, i)) {
          var amount := tx.amount;
          if tx.kind == Income {
            income := income[i := Plus(income[i], amount)];
          } else if tx.kind == Expense {
            expense := expense[i := Plus(expense[i], amount)];
          }
        }
      }
    }
    assert txs[..|txs|] == txs;
  }

  /** A transaction lands in slot `i` exactly when its day is the `i`-th day of the week. */
  lemma SlotOfDay(t: int, weekStart: int, i: int)
    ensures IsSameDay(t, AddDays(weekStart, i)) <==> DayOf(t) == DayOf(weekStart) + i
  {
    DayOfAddDays(weekStart, i);
  }

  /** So it lands in at most one slot. */
  lemma AtMostOneSlot(t: int, weekStart: int, i: int, j: int)
    requires IsSameDay(t, AddDays(weekStart, i)) && IsSameDay(t, AddDays(weekStart, j))
    ensures i == j
  {
    SlotOfDay(t, weekStart, i);
    SlotOfDay(t, weekStart, j);
  }

  /** The transactions of type `k` whose calendar day is one of the seven days from `weekStart`. */
  function DayWindowTest(weekStart: int, k: TxType): Tx -> bool {
    (tx: Tx) => DayOf(weekStart) <= DayOf(tx.date) <= DayOf(weekStart) + 6 && tx.kind == k
  }

  /** `SlotsSnoc` on the running totals. */
  lemma DaySlotsSnoc(txs: seq<Tx>, tx: Tx, weekStart: int, k: TxType)
    ensures DayWindowTest(weekStart, k)(tx) ==>
      var d := DayOf(tx.date) - DayOf(weekStart);
      0 <= d < 7 && DaySlots(txs + [tx], weekStart, k) == DaySlots(txs, weekStart, k)[d := Plus(DaySlots(txs, weekStart, k)[d], tx.amount)]
    ensures !DayWindowTest(weekStart, k)(tx) ==> DaySlots(txs + [tx], weekStart, k) == DaySlots(txs, weekStart, k)
  {
    forall i | 0 <= i < 7
      ensures DaySlots(txs + [tx], weekStart, k)[i] ==
        if IsSameDay(tx.date, AddDays(weekStart, i)) && tx.kind == k
        then Plus(DaySlots(txs, weekStart, k)[i], tx.amount)
        else DaySlots(txs, weekStart, k)[i]
    {
      SlotTotalSnoc(txs, tx, weekStart, i, k);
    }
    forall i | 0 <= i < 7
      ensures IsSameDay(tx.date, AddDays(weekStart, i)) <==> DayOf(tx.date) == DayOf(weekStart) + i
    {
      SlotOfDay(tx.date, weekStart, i);
    }
  }

  /** One more transaction bumps the slot of its day when it is of type `k` and in the window, and nothing else. */
  lemma SlotsSnoc(txs: seq<Tx>, tx: Tx, weekStart: int, k: TxType)
    ensures DayWindowTest(weekStart, k)(tx) ==>
      var d := DayOf(tx.date) - DayOf(weekStart);
      0 <= d < 7 && Slots(txs + [tx], weekStart, k) == Slots(txs, weekStart, k)[d := Plus(Slots(txs, weekStart, k)[d], tx.amount)]
    ensures !DayWindowTest(weekStart, k)(tx) ==> Slots(txs + [tx], weekStart, k) == Slots(txs, weekStart, k)
  {
    DaySlotsSnoc(txs, tx, weekStart, k);
    assert Slots(txs + [tx], weekStart, k) == DaySlots(txs + [tx], weekStart, k);
    assert Slots(txs, weekStart, k) == DaySlots(txs, weekStart, k);
  }

  /** One more transaction in the window adds its amount to both sides. */
  lemma SlotsSumStepIn(init: seq<Tx>, tx: Tx, weekStart: int, k: TxType)
    requires DayWindowTest(weekStart, k)(tx)
    requires SumAll(DaySlots(init, weekStart, k)) == Sum(Filter(init, DayWindowTest(weekStart, k)))
    ensures SumAll(DaySlots(init + [tx], weekStart, k)) == Sum(Filter(init + [tx], DayWindowTest(weekStart, k)))
  {
    var f := Filter(init, DayWindowTest(weekStart, k));
    FilterSnoc(init, tx, DayWindowTest(weekStart, k));
    DaySlotsSnoc(init, tx, weekStart, k);
    SumAllBump(DaySlots(init, weekStart, k), DayOf(tx.date) - DayOf(weekStart), tx.amount);
    assert (f + [tx])[..|f|] == f;
  }

  /** One more transaction outside the window changes neither side. */
  lemma SlotsSumStepOut(init: seq<Tx>, tx: Tx, weekStart: int, k: TxType)
    requires !DayWindowTest(weekStart, k)(tx)
    requires SumAll(DaySlots(init, weekStart, k)) == Sum(Filter(init, DayWindowTest(weekStart, k)))
    ensures SumAll(DaySlots(init + [tx], weekStart, k)) == Sum(Filter(init + [tx], DayWindowTest(weekStart, k)))
  {
    var f := Filter(init, DayWindowTest(weekStart, k));
    FilterSnoc(init, tx, DayWindowTest(weekStart, k));
    DaySlotsSnoc(init, tx, weekStart, k);
    assert f + [] == f;
  }

  /** `SlotsSumToWindowTotal` on the running totals, by induction on the list. */
  lemma {:induction false} DaySlotsSumToWindowTotal(txs: seq<Tx>, weekStart: int, k: TxType)
    ensures SumAll(DaySlots(txs, weekStart, k)) == Sum(Filter(txs, DayWindowTest(weekStart, k)))
    decreases |txs|
  {
    if |txs| == 0 {
      assert DaySlots(txs, weekStart, k) == seq(7, _ => Some(0.0));
      SumAllZeros(7);
    } else {
      var init := txs[..|txs| - 1];
      var tx := txs[|txs| - 1];
      assert txs == init + [tx];
      DaySlotsSumToWindowTotal(init, weekStart, k);
      if DayWindowTest(weekStart, k)(tx) {
        SlotsSumStepIn(init, tx, weekStart, k);
      } else {
        SlotsSumStepOut(init, tx, weekStart, k);
      }
    }
  }

  /** The seven slots together hold exactly the total of the transactions of their type in the seven days. */
  lemma SlotsSumToWindowTotal(txs: seq<Tx>, weekStart: int, k: TxType)
    ensures SumAll(Slots(txs, weekStart, k)) == Sum(Filter(txs, DayWindowTest(weekStart, k)))
  {
    DaySlotsSumToWindowTotal(txs, weekStart, k);
    assert Slots(txs, weekStart, k) == DaySlots(txs, weekStart, k);
  }

  /** `val === 0 ? 0.1 : val`: the chart draws a stub bar for an empty day (NaN is left as it is). */
  function ChartValues(slots: seq<Number>): (r: seq<Number>)
    ensures |r| == |slots|
    ensures forall i :: 0 <= i < |slots| ==> r[i] == if Same(slots[i], Some(0.0)) then Some(0.1) else slots[i]
  {
    seq(|slots|, i requires 0 <= i < |slots| => if Same(slots[i], Some(0.0)) then Some(0.1) else slots[i])
  }

  /** The chart copy differs from the slots only where a slot is 0, and never holds a 0. */
  lemma ChartOnlyReplacesZeros(slots: seq<Number>)
    ensures forall i :: 0 <= i < |slots| && !Same(slots[i], Some(0.0)) ==> ChartValues(slots)[i] == slots[i]
    ensures forall i :: 0 <= i < |slots| ==> !Same(ChartValues(slots)[i], Some(0.0))
  {
  }

  // ---------------------------------------------------------------------------
  // The category breakdown

  /** One entry of the category map: a category and its accumulated amount. */
  datatype Entry = Entry(category: string, amount: Number)

  /** The categories of `entries`, in insertion order (`Object.keys`). */
  function Keys(entries: seq<Entry>): (r: seq<string>)
    ensures |r| == |entries| && forall i :: 0 <= i < |r| ==> r[i] == entries[i].category
  {
    seq(|entries|, i requires 0 <= i < |entries| => entries[i].category)
  }

  /** The amounts of `entries`, in insertion order (`Object.values`). */
  function Values(entries: seq<Entry>): (r: seq<Number>)
    ensures |r| == |entries| && forall i :: 0 <= i < |r| ==> r[i] == entries[i].amount
  {
    seq(|entries|, i requires 0 <= i < |entries| => entries[i].amount)
  }

  /** No category occurs twice. */
  predicate DistinctKeys(entries: seq<Entry>) {
    forall i, j :: 0 <= i < j < |entries| ==> entries[i].category != entries[j].category
  }

  /** The position of `c` in `entries`, or `|entries|` when it is not there. */
  function IndexOf(entries: seq<Entry>, c: string): (i: nat)
    ensures i <= |entries|
    ensures i < |entries| ==> entries[i].category == c
    ensures i == |entries| ==> c !in Keys(entries)
    decreases |entries|
  {
    if |entries| == 0 then 0
    else if entries[0].category == c then 0
    else
      var k := 1 + IndexOf(entries[1..], c);
      assert Keys(entries[1..]) == Keys(entries)[1..];
      k
  }

  /** `categoryMap[c] = (categoryMap[c] || 0) + amount`. */
  function Accumulate(entries: seq<Entry>, c: string, amount: Number): (r: seq<Entry>)
    requires DistinctKeys(entries)
    ensures DistinctKeys(r)
    ensures forall x :: x in Keys(r) <==> x in Keys(entries) || x == c
    ensures c in Keys(entries) ==> |r| == |entries| && forall j :: 0 <= j < |r| ==>
      r[j] == if entries[j].category == c then Entry(c, Plus(Or(entries[j].amount, Some(0.0)), amount)) else entries[j]
    ensures c !in Keys(entries) ==> r == entries + [Entry(c, Plus(Some(0.0), amount))]
  {
    var i := IndexOf(entries, c);
    if i < |entries| then
      var r := entries[i := Entry(c, Plus(Or(entries[i].amount, Some(0.0)), amount))];
      assert Keys(r) == Keys(entries);
      r
    else
      var r := entries + [Entry(c, Plus(Some(0.0), amount))];
      assert Keys(r) == Keys(entries) + [c];
      r
  }

  /** The category map built from the transactions passing `test`, visited in list order. */
  function Group(txs: seq<Tx>, test: Tx -> bool): (r: seq<Entry>)
    ensures DistinctKeys(r)
    ensures forall c :: c in Keys(r) <==> exists j :: 0 <= j < |txs| && test(txs[j]) && txs[j].category == c
    decreases |txs|
  {
    if |txs| == 0 then []
    else
      var init := txs[..|txs| - 1];
      var tx := txs[|txs| - 1];
      var g := Group(init, test);
      assert forall j :: 0 <= j < |init| ==> init[j] == txs[j];
      if test(tx) then Accumulate(g, tx.category, tx.amount) else g
  }

  /** The map is empty exactly when no transaction passes the test (the "no data" case). */
  lemma GroupEmptyIff(txs: seq<Tx>, test: Tx -> bool)
    ensures |Group(txs, test)| == 0 <==> forall j :: 0 <= j < |txs| ==> !test(txs[j])
  {
    var g := Group(txs, test);
    if |g| > 0 {
      assert g[0].category in Keys(g);
    } else {
      forall j | 0 <= j < |txs| ensures !test(txs[j]) {
        assert txs[j].category !in Keys(g);
      }
    }
  }

  /** `t => t.test && t.category === c`. */
  function InCategory(test: Tx -> bool, c: string): Tx -> bool {
    (tx: Tx) => test(tx) && tx.category == c
  }

  /** With no NaN about, each category's amount is the total of its transactions. */
  lemma {:induction false} GroupValues(txs: seq<Tx>, test: Tx -> bool)
    requires NoNaN(txs)
    ensures forall i :: 0 <= i < |Group(txs, test)| ==>
      Group(txs, test)[i].amount == Sum(Filter(txs, InCategory(test, Group(txs, test)[i].category)))
    decreases |txs|
  {
    if |txs| > 0 {
      var init := txs[..|txs| - 1];
      var tx := txs[|txs| - 1];
      assert txs == init + [tx];
      assert NoNaN(init) by {
        assert forall j :: 0 <= j < |init| ==> init[j] == txs[j];
      }
      GroupValues(init, test);
      var g := Group(init, test);
      var r := Group(txs, test);
      forall i | 0 <= i < |r|
        ensures r[i].amount == Sum(Filter(txs, InCategory(test, r[i].category)))
      {
        var c := r[i].category;
        var p := InCategory(test, c);
        FilterSnoc(init, tx, p);
        var f := Filter(init, p);
        if p(tx) {
          assert (f + [tx])[..|f|] == f;
          var k := IndexOf(g, c);
          if k < |g| {
            assert i == k by { DistinctIndex(r, i, k); }
            SumNotNaN(f);
          } else {
            assert i == |g|;
            assert c !in Keys(g);
            EmptyFilterOfAbsent(init, test, c);
          }
        } else {
          assert f + [] == f;
          if test(tx) {
            var k := IndexOf(g, tx.category);
            assert i != k || k == |g|;
          }
          assert i < |g| && r[i] == g[i];
        }
      }
    }
  }

  lemma DistinctIndex(r: seq<Entry>, i: int, k: int)
    requires DistinctKeys(r) && 0 <= i < |r| && 0 <= k < |r| && r[i].category == r[k].category
    ensures i == k
  {
  }

  /** With no NaN the amounts added are finite, so the running value is never NaN. */
  lemma SumNotNaN(f: seq<Tx>)
    requires NoNaN(f)
    ensures Sum(f).Some?
  {
  }

  /** A category absent from the map has no transaction passing the test. */
  lemma EmptyFilterOfAbsent(txs: seq<Tx>, test: Tx -> bool, c: string)
    requires c !in Keys(Group(txs, test))
    ensures Filter(txs, InCategory(test, c)) == []
  {
  }

  /** Under no NaN every category amount is a number. */
  lemma GroupNotNaN(txs: seq<Tx>, test: Tx -> bool)
    requires NoNaN(txs)
    ensures forall i :: 0 <= i < |Group(txs, test)| ==> Group(txs, test)[i].amount.Some?
  {
    var g := Group(txs, test);
    GroupValues(txs, test);
    forall i | 0 <= i < |g| ensures g[i].amount.Some? {
      SumNotNaN(Filter(txs, InCategory(test, g[i].category)));
    }
  }

  /** Accumulating a number into a map of numbers adds it to the map's total. */
  lemma AccumulateAddsToTotal(g: seq<Entry>, c: string, a: Number)
    requires DistinctKeys(g)
    requires forall i :: 0 <= i < |g| ==> g[i].amount.Some?
    ensures SumAll(Values(Accumulate(g, c, a))) == Plus(SumAll(Values(g)), a)
  {
    var k := IndexOf(g, c);
    if k < |g| {
      assert Values(Accumulate(g, c, a)) == Values(g)[k := Plus(Values(g)[k], a)];
      SumAllBump(Values(g), k, a);
    } else {
      PlusZero(a);
      assert Values(Accumulate(g, c, a)) == Values(g) + [a];
      SumAllSnoc(Values(g), a);
    }
  }

  /** With no NaN about, the amounts of the map add up to the total of the transactions passing the test. */
  lemma {:induction false} GroupTotal(txs: seq<Tx>, test: Tx -> bool)
    requires NoNaN(txs)
    ensures SumAll(Values(Group(txs, test))) == Sum(Filter(txs, test))
    decreases |txs|
  {
    if |txs| > 0 {
      var init := txs[..|txs| - 1];
      var tx := txs[|txs| - 1];
      assert txs == init + [tx];
      assert NoNaN(init) by {
        assert forall j :: 0 <= j < |init| ==> init[j] == txs[j];
      }
      GroupTotal(init, test);
      FilterSnoc(init, tx, test);
      var f := Filter(init, test);
      if test(tx) {
        assert (f + [tx])[..|f|] == f;
        GroupNotNaN(init, test);
        AccumulateAddsToTotal(Group(init, test), tx.category, tx.amount);
      } else {
        assert f + [] == f;
      }
    }
  }

  /** The type the breakdown shows: income when the income toggle is on, expense otherwise. */
  function SelectedKind(showIncome: bool): TxType {
    if showIncome then Income else Expense
  }

  /** The test `getCategoryData` applies: `weekStart <= date <= addDays(weekStart, 6)` on instants. */
  function WeekWindowTest(weekStart: int, showIncome: bool): Tx -> bool {
    (tx: Tx) => weekStart <= tx.date <= AddDays(weekStart, 6) && tx.kind == SelectedKind(showIncome)
  }

  /** `getCategoryData` as written: the week ends at Sunday 00:00. */
  function CategoryBreakdown(txs: seq<Tx>, weekStart: int, showIncome: bool): (r: seq<Entry>)
    ensures DistinctKeys(r)
    ensures forall c :: c in Keys(r) <==>
      exists j :: 0 <= j < |txs| && weekStart <= txs[j].date <= AddDays(weekStart, 6)
                  && txs[j].kind == SelectedKind(showIncome) && txs[j].category == c
  {
    Group(txs, WeekWindowTest(weekStart, showIncome))
  }

  /** The breakdown with the week read by calendar day, as the bar series reads it. */
  function CategoryBreakdownByDay(txs: seq<Tx>, weekStart: int, showIncome: bool): (r: seq<Entry>)
    ensures DistinctKeys(r)
    ensures forall c :: c in Keys(r) <==>
      exists j :: 0 <= j < |txs| && DayOf(weekStart) <= DayOf(txs[j].date) <= DayOf(weekStart) + 6
                  && txs[j].kind == SelectedKind(showIncome) && txs[j].category == c
  {
    Group(txs, DayWindowTest(weekStart, SelectedKind(showIncome)))
  }

  /** `Object.values(categoryData).reduce((a, b) => a + b, 0)`. */
  function BreakdownTotal(entries: seq<Entry>): Number {
    SumAll(Values(entries))
  }

  /** As written, `total` is the total of the selected type over the instants of the window. */
  lemma BreakdownTotalIsWindowTotal(txs: seq<Tx>, weekStart: int, showIncome: bool)
    requires NoNaN(txs)
    ensures BreakdownTotal(CategoryBreakdown(txs, weekStart, showIncome)) ==
      Sum(Filter(txs, WeekWindowTest(weekStart, showIncome)))
  {
    GroupTotal(txs, WeekWindowTest(weekStart, showIncome));
  }

  /** As written, a transaction on the window's Sunday after midnight is left out of the breakdown, though its day is in the window. */
  lemma SundayAfterMidnightLeftOut(weekStart: int, showIncome: bool, tx: Tx)
    requires weekStart == StartOfDay(weekStart)
    requires DayOf(tx.date) == DayOf(weekStart) + 6 && tx.date > AddDays(weekStart, 6)
    requires tx.kind == SelectedKind(showIncome)
    ensures !WeekWindowTest(weekStart, showIncome)(tx)
    ensures DayWindowTest(weekStart, SelectedKind(showIncome))(tx)
  {
  }

  /** A concrete case: the Monday 1970-01-05 00:00, and 5 spent on food on the Sunday after it at noon. */
  const ExampleWeek: int := 4 * MsPerDay
  const SundayNoonLunch: Tx := Tx("t1", Some(5.0), "Food", Expense, 10 * MsPerDay + MsPerDay / 2, "lunch")

  /** As written, the breakdown of that week has no entry for the Sunday lunch. */
  lemma SundayNoonMissedByBreakdown()
    ensures Weekday(DayOf(ExampleWeek)) == 0
    ensures CategoryBreakdown([SundayNoonLunch], ExampleWeek, false) == []
  {
    var test := WeekWindowTest(ExampleWeek, false);
    assert [SundayNoonLunch][..0] == [];
    assert !test(SundayNoonLunch);
    assert Group([SundayNoonLunch], test) == Group([], test);
  }

  /** The bars of that week show the lunch on Sunday. */
  lemma SundayNoonInBars()
    ensures Slots([SundayNoonLunch], ExampleWeek, Expense)[6] == Some(5.0)
  {
    assert [SundayNoonLunch][..0] == [];
    assert IsSameDay(SundayNoonLunch.date, AddDays(ExampleWeek, 6));
    assert SlotTotal([SundayNoonLunch], ExampleWeek, 6, Expense) == Plus(Some(0.0), Some(5.0));
  }

  /** Read by calendar day, the breakdown of that week has the lunch. */
  lemma SundayNoonInByDayBreakdown()
    ensures CategoryBreakdownByDay([SundayNoonLunch], ExampleWeek, false) == [Entry("Food", Some(5.0))]
  {
    var test := DayWindowTest(ExampleWeek, Expense);
    assert [SundayNoonLunch][..0] == [];
    assert test(SundayNoonLunch);
    assert Group([SundayNoonLunch], test) == Accumulate(Group([], test), "Food", Some(5.0));
    assert Accumulate([], "Food", Some(5.0)) == [Entry("Food", Plus(Some(0.0), Some(5.0)))];
  }

  /** Read by calendar day, the breakdown total equals the sum of the week's bars of the same type. */
  lemma ByDayTotalMatchesBars(txs: seq<Tx>, weekStart: int, showIncome: bool)
    requires NoNaN(txs)
    ensures BreakdownTotal(CategoryBreakdownByDay(txs, weekStart, showIncome)) ==
      SumAll(Slots(txs, weekStart, SelectedKind(showIncome)))
  {
    GroupTotal(txs, DayWindowTest(weekStart, SelectedKind(showIncome)));
    SlotsSumToWindowTotal(txs, weekStart, SelectedKind(showIncome));
  }

  /** `total === 0 ? 0 : amount / total`. */
  function Share(amount: Number, total: Number): (r: Number)
    ensures total.Some? && total.value != 0.0 && amount.Some? ==> r == Some(amount.value / total.value)
    ensures Same(total, Some(0.0)) ==> r == Some(0.0)
  {
    if Same(total, Some(0.0)) then Some(0.0)
    else if amount.Some? && total.Some? then Some(amount.value / total.value)
    else None
  }

  /** The share of every category of the breakdown, in its order. */
  function Shares(entries: seq<Entry>): (r: seq<Number>)
    ensures |r| == |entries|
    ensures forall i :: 0 <= i < |r| ==> r[i] == Share(entries[i].amount, BreakdownTotal(entries))
  {
    var total := BreakdownTotal(entries);
    seq(|entries|, i requires 0 <= i < |entries| => Share(entries[i].amount, total))
  }

  /** Dividing every term by `t` divides the sum by `t`. */
  lemma {:induction false} SumOfShares(xs: seq<Number>, t: real)
    requires t != 0.0 && SumAll(xs).Some?
    ensures SumAll(seq(|xs|, i requires 0 <= i < |xs| => Share(xs[i], Some(t)))) == Some(SumAll(xs).value / t)
    decreases |xs|
  {
    var ys := seq(|xs|, i requires 0 <= i < |xs| => Share(xs[i], Some(t)));
    if |xs| > 0 {
      var init := xs[..|xs| - 1];
      var x := xs[|xs| - 1];
      assert SumAll(init).Some? && x.Some?;
      SumOfShares(init, t);
      assert ys[..|ys| - 1] == seq(|init|, i requires 0 <= i < |init| => Share(init[i], Some(t)));
      DivideSum(SumAll(init).value, x.value, t);
    }
  }

  lemma DivideSum(a: real, b: real, t: real)
    requires t != 0.0
    ensures a / t + b / t == (a + b) / t
  {
  }

  /** When the total is a non-zero number the shares add up to 1. */
  lemma SharesSumToOne(entries: seq<Entry>)
    requires BreakdownTotal(entries).Some? && BreakdownTotal(entries).value != 0.0
    ensures SumAll(Shares(entries)) == Some(1.0)
  {
    var xs := Values(entries);
    var t := BreakdownTotal(entries).value;
    SumOfShares(xs, t);
    assert SumAll(xs).value / t == 1.0;
    assert Shares(entries) == seq(|xs|, i requires 0 <= i < |xs| => Share(xs[i], Some(t)));
  }

  /** What the weekly report draws. */
  datatype Report = Report(
    expenseBars: seq<Number>, incomeBars: seq<Number>,
    breakdown: seq<Entry>, total: Number, shares: seq<Number>)

  /** The report drawn for a breakdown: the two chart series, the breakdown, its total and the shares. */
  function ReportOf(txs: seq<Tx>, weekStart: int, breakdown: seq<Entry>): (r: Report)
    ensures r.expenseBars == ChartValues(Slots(txs, weekStart, Expense))
    ensures r.incomeBars == ChartValues(Slots(txs, weekStart, Income))
    ensures r.breakdown == breakdown && r.total == SumAll(Values(breakdown))
    ensures |r.shares| == |breakdown| && forall i :: 0 <= i < |breakdown| ==> r.shares[i] == Share(breakdown[i].amount, r.total)
    ensures r.total.Some? && r.total.value != 0.0 ==> SumAll(r.shares) == Some(1.0)
  {
    var total := BreakdownTotal(breakdown);
    assert total.Some? && total.value != 0.0 ==> SumAll(Shares(breakdown)) == Some(1.0) by {
      if total.Some? && total.value != 0.0 {
        SharesSumToOne(breakdown);
      }
    }
    Report(
      ChartValues(Slots(txs, weekStart, Expense)), ChartValues(Slots(txs, weekStart, Income)),
      breakdown, total, Shares(breakdown))
  }

  /** The weekly report as the screen computes it, with the breakdown as written. */
  function WeeklyReport(txs: seq<Tx>, weekStart: int, showIncome: bool): (r: Report)
    ensures |r.expenseBars| == 7 && |r.incomeBars| == 7
    ensures r.expenseBars == ChartValues(Slots(txs, weekStart, Expense))
    ensures r.incomeBars == ChartValues(Slots(txs, weekStart, Income))
    ensures DistinctKeys(r.breakdown)
    ensures forall c :: c in Keys(r.breakdown) <==>
      exists j :: 0 <= j < |txs| && weekStart <= txs[j].date <= AddDays(weekStart, 6)
                  && txs[j].kind == SelectedKind(showIncome) && txs[j].category == c
    ensures NoNaN(txs) ==> forall i :: 0 <= i < |r.breakdown| ==>
      r.breakdown[i].amount == Sum(Filter(txs, InCategory(WeekWindowTest(weekStart, showIncome), r.breakdown[i].category)))
    ensures NoNaN(txs) ==> r.total == Sum(Filter(txs, WeekWindowTest(weekStart, showIncome)))
    ensures |r.shares| == |r.breakdown| && forall i :: 0 <= i < |r.shares| ==> r.shares[i] == Share(r.breakdown[i].amount, r.total)
    ensures r.total.Some? && r.total.value != 0.0 ==> SumAll(r.shares) == Some(1.0)
  {
    var breakdown := CategoryBreakdown(txs, weekStart, showIncome);
    var test := WeekWindowTest(weekStart, showIncome);
    assert NoNaN(txs) ==>
      && (forall i :: 0 <= i < |breakdown| ==> breakdown[i].amount == Sum(Filter(txs, InCategory(test, breakdown[i].category))))
      && BreakdownTotal(breakdown) == Sum(Filter(txs, test)) by {
      if NoNaN(txs) {
        GroupValues(txs, test);
        BreakdownTotalIsWindowTotal(txs, weekStart, showIncome);
      }
    }
    ReportOf(txs, weekStart, breakdown)
  }

  /**
   * The weekly report with the breakdown read by calendar day, so that its total is the
   * total of the bars of the selected type.
   */
  function WeeklyReportByDay(txs: seq<Tx>, weekStart: int, showIncome: bool): (r: Report)
    ensures |r.expenseBars| == 7 && |r.incomeBars| == 7
    ensures r.expenseBars == ChartValues(Slots(txs, weekStart, Expense))
    ensures r.incomeBars == ChartValues(Slots(txs, weekStart, Income))
    ensures DistinctKeys(r.breakdown)
    ensures forall c :: c in Keys(r.breakdown) <==>
      exists j :: 0 <= j < |txs| && DayOf(weekStart) <= DayOf(txs[j].date) <= DayOf(weekStart) + 6
                  && txs[j].kind == SelectedKind(showIncome) && txs[j].category == c
    ensures NoNaN(txs) ==> r.total == SumAll(Slots(txs, weekStart, SelectedKind(showIncome)))
    ensures |r.shares| == |r.breakdown| && forall i :: 0 <= i < |r.shares| ==> r.shares[i] == Share(r.breakdown[i].amount, r.total)
    ensures r.total.Some? && r.total.value != 0.0 ==> SumAll(r.shares) == Some(1.0)
  {
    var breakdown := CategoryBreakdownByDay(txs, weekStart, showIncome);
    assert NoNaN(txs) ==> BreakdownTotal(breakdown) == SumAll(Slots(txs, weekStart, SelectedKind(showIncome))) by {
      if NoNaN(txs) {
        ByDayTotalMatchesBars(txs, weekStart, showIncome);
      }
    }
    ReportOf(txs, weekStart, breakdown)
  }

  /** The Sunday lunch: the report as written has no breakdown and a total of 0; read by day it has Food 5. */
  lemma SundayNoonReports()
    ensures WeeklyReport([SundayNoonLunch], ExampleWeek, false).breakdown == []
    ensures WeeklyReport([SundayNoonLunch], ExampleWeek, false).total == Some(0.0)
    ensures WeeklyReportByDay([SundayNoonLunch], ExampleWeek, false).breakdown == [Entry("Food", Some(5.0))]
    ensures WeeklyReportByDay([SundayNoonLunch], ExampleWeek, false).total == Some(5.0)
  {
    SundayNoonMissedByBreakdown();
    SundayNoonInByDayBreakdown();
    var e := [Entry("Food", Some(5.0))];
    assert Values(e) == [Some(5.0)];
    assert Values(e)[..0] == [];
    assert SumAll(Values(e)) == Plus(SumAll([]), Some(5.0));
  }
}

=== FILE: text.dfy ===
/** The JavaScript string operations the screens use: `trim`, `toLowerCase` and `includes`. */
module Text {

  /** The WhiteSpace and LineTerminator characters of ECMAScript, which `trim` and `parseFloat` skip. */
  predicate IsSpace(c: char) {
    || c == ' ' || c == '\t' || c == '\n' || c == '\r' || c == '\U{B}' || c == '\U{C}'
    || c == '\U{A0}' || c == '\U{1680}' || ('\U{2000}' <= c <= '\U{200A}')
    || c == '\U{2028}' || c == '\U{2029}' || c == '\U{202F}' || c == '\U{205F}'
    || c == '\U{3000}' || c == '\U{FEFF}'
  }

  /** `s` with its leading white space removed. */
  function TrimStart(s: string): (r: string)
    ensures |r| <= |s| && r == s[|s| - |r|..]
    ensures forall i :: 0 <= i < |s| - |r| ==> IsSpace(s[i])
    ensures |r| > 0 ==> !IsSpace(r[0])
  {
    if |s| > 0 && IsSpace(s[0]) then TrimStart(s[1..]) else s
  }

  /** `s` with its trailing white space removed. */
  function TrimEnd(s: string): (r: string)
    ensures |r| <= |s| && r == s[..|r|]
    ensures forall i :: |r| <= i < |s| ==> IsSpace(s[i])
    ensures |r| > 0 ==> !IsSpace(r[|r| - 1])
  {
    if |s| > 0 && IsSpace(s[|s| - 1]) then TrimEnd(s[..|s| - 1]) else s
  }

  /** `s.trim()`. */
  function Trim(s: string): string {
    TrimEnd(TrimStart(s))
  }

  /** Nothing but white space (possibly nothing at all). */
  predicate IsBlank(s: string) {
    forall i :: 0 <= i < |s| ==> IsSpace(s[i])
  }

  /** `s.trim() === ''` holds exactly for blank strings. */
  lemma TrimEmptyIffBlank(s: string)
    ensures Trim(s) == "" <==> IsBlank(s)
  {
    var t := TrimStart(s);
    if Trim(s) == "" {
      assert |t| == 0;
    } else {
      assert |t| > 0 && !IsSpace(t[0]);
      assert t[0] == s[|s| - |t|];
    }
  }

  /** ASCII upper-case letters map to lower case; every other character is left alone. */
  function LowerChar(c: char): (r: char)
    ensures 'A' <= c <= 'Z' ==> r as int == c as int + 32
    ensures !('A' <= c <= 'Z') ==> r == c
  {
    if 'A' <= c <= 'Z' then (c as int + 32) as char else c
  }

  /** `s.toLowerCase()` restricted to the ASCII letters. */
  function Lower(s: string): (r: string)
    ensures |r| == |s|
    ensures forall i :: 0 <= i < |s| ==> r[i] == LowerChar(s[i])
  {
    seq(|s|, i requires 0 <= i < |s| => LowerChar(s[i]))
  }

  /** Lower-casing works character by character, so it commutes with concatenation. */
  lemma LowerConcat(a: string, b: string)
    ensures Lower(a + b) == Lower(a) + Lower(b)
  {
  }

  /** `sub` occurs in `s` starting at position `i`. */
  predicate OccursAt(s: string, sub: string, i: int) {
    0 <= i && i + |sub| <= |s| && s[i..i + |sub|] == sub
  }

  /** `s.includes(sub)`, searched from the left. */
  function Contains(s: string, sub: string): (r: bool)
    ensures r <==> exists i :: OccursAt(s, sub, i)
    decreases |s|
  {
    if |sub| <= |s| && s[..|sub|] == sub then
      assert OccursAt(s, sub, 0);
      true
    else if |s| == 0 then
      assert forall i :: !OccursAt(s, sub, i);
      false
    else
      var rest := Contains(s[1..], sub);
      assert forall i :: OccursAt(s[1..], sub, i) ==> OccursAt(s, sub, i + 1) by {
        forall i | OccursAt(s[1..], sub, i) ensures OccursAt(s, sub, i + 1) {
          assert s[i + 1..i + 1 + |sub|] == s[1..][i..i + |sub|];
        }
      }
      assert forall i :: OccursAt(s, sub, i) ==> OccursAt(s[1..], sub, i - 1) by {
        forall i | OccursAt(s, sub, i) ensures OccursAt(s[1..], sub, i - 1) {
          assert i != 0;
          assert s[i..i + |sub|] == s[1..][i - 1..i - 1 + |sub|];
        }
      }
      rest
  }

  /** Whatever contains `a + b` also contains `a`. */
  lemma ContainsPrefixOf(s: string, a: string, b: string)
    requires Contains(s, a + b)
    ensures Contains(s, a)
  {
    var i :| OccursAt(s, a + b, i);
    assert s[i..i + |a|] == (a + b)[..|a|];
    assert OccursAt(s, a, i);
  }
}

=== FILE: transactionlist.dfy ===
/**
 * The transaction list: the free-text search and the edit form, whose two fields
 * replace only the amount or only the description of the transaction being edited.
 */
module TransactionList {
  import opened Wrappers
  import opened Seqs
  import opened Text
  import opened JsNumber
  import opened Numbers
  import opened Transactions

  /** The lower-cased category or description contains the lower-cased query. */
  predicate TextMatches(tx: Tx, query: string) {
    || Contains(Lower(tx.category), Lower(query))
    || Contains(Lower(tx.description), Lower(query))
  }

  /**
   * The search test: the text tests, or else the amount's text contains the query as typed.
   * `amount.toString()` is the engine's `Number.prototype.toString`, given here as `show`.
   */
  predicate Matches(tx: Tx, query: string, show: real -> string) {
    TextMatches(tx, query) || (tx.amount.Some? && Contains(show(tx.amount.value), query))
  }

  /**
   * The test throws: both text tests fail, so `tx.amount.toString()` runs, and the amount
   * is `null` (a stored amount is never NaN: NaN reaches the store as JSON `null`).
   */
  predicate Throws(tx: Tx, query: string) {
    !TextMatches(tx, query) && tx.amount.None?
  }

  function MatchFilter(query: string, show: real -> string): Tx -> bool {
    (tx: Tx) => Matches(tx, query, show)
  }

  /**
   * `handleSearch`: the whole list for a blank query, the matching transactions in order
   * otherwise; `None` when the filter throws, which leaves the list as it was.
   */
  function Search(txs: seq<Tx>, query: string, show: real -> string): (r: Option<seq<Tx>>)
    ensures Trim(query) == "" ==> r == Some(txs)
    ensures Trim(query) != "" ==> (r.None? <==> exists i :: 0 <= i < |txs| && Throws(txs[i], query))
    ensures Trim(query) != "" && r.Some? ==> Subseq(r.value, txs)
    ensures Trim(query) != "" && r.Some? ==>
      forall tx :: multiset(r.value)[tx] == if Matches(tx, query, show) then multiset(txs)[tx] else 0
  {
    if Trim(query) == "" then Some(txs)
    else if exists i :: 0 <= i < |txs| && Throws(txs[i], query) then None
    else
      FilterCounts(txs, MatchFilter(query, show));
      Some(Filter(txs, MatchFilter(query, show)))
  }

  /** Only a query of white space alone keeps the whole list without testing it. */
  lemma BlankQueryKeepsAll(txs: seq<Tx>, query: string, show: real -> string)
    ensures IsBlank(query) ==> Search(txs, query, show) == Some(txs)
    ensures !IsBlank(query) && (forall i :: 0 <= i < |txs| ==> !Throws(txs[i], query)) ==>
      Search(txs, query, show) == Some(Filter(txs, MatchFilter(query, show)))
  {
    TrimEmptyIffBlank(query);
  }

  /** A prefix of a blank string is blank. */
  lemma BlankPrefix(a: string, b: string)
    requires IsBlank(a + b)
    ensures IsBlank(a)
  {
    assert forall i :: 0 <= i < |a| ==> a[i] == (a + b)[i];
  }

  /** A transaction whose text matches a query also matches by text every prefix of it. */
  lemma TextMatchesPrefix(tx: Tx, q: string, extra: string)
    requires TextMatches(tx, q + extra)
    ensures TextMatches(tx, q)
  {
    LowerConcat(q, extra);
    if Contains(Lower(tx.category), Lower(q + extra)) {
      ContainsPrefixOf(Lower(tx.category), Lower(q), Lower(extra));
    } else {
      ContainsPrefixOf(Lower(tx.description), Lower(q), Lower(extra));
    }
  }

  /** A transaction matching a query also matches every prefix of it. */
  lemma MatchesPrefix(tx: Tx, q: string, extra: string, show: real -> string)
    requires Matches(tx, q + extra, show)
    ensures Matches(tx, q, show)
  {
    if TextMatches(tx, q + extra) {
      TextMatchesPrefix(tx, q, extra);
    } else {
      ContainsPrefixOf(show(tx.amount.value), q, extra);
    }
  }

  /**
   * Typing more can only narrow the result: whatever `q + extra` finds, `q` finds too; and
   * once the search throws, typing more keeps it throwing.
   */
  lemma LongerQueryNarrows(txs: seq<Tx>, q: string, extra: string, show: real -> string)
    ensures Search(txs, q + extra, show).Some? && Search(txs, q, show).Some? ==>
      forall tx :: tx in Search(txs, q + extra, show).value ==> tx in Search(txs, q, show).value
    ensures Search(txs, q, show).None? ==> Search(txs, q + extra, show).None?
  {
    TrimEmptyIffBlank(q);
    TrimEmptyIffBlank(q + extra);
    if Trim(q + extra) == "" {
      BlankPrefix(q, extra);
    } else if Trim(q) != "" {
      if Search(txs, q, show).None? {
        var i :| 0 <= i < |txs| && Throws(txs[i], q);
        if TextMatches(txs[i], q + extra) {
          TextMatchesPrefix(txs[i], q, extra);
        }
        assert Throws(txs[i], q + extra);
      } else if Search(txs, q + extra, show).Some? {
        forall tx | tx in Search(txs, q + extra, show).value ensures tx in Search(txs, q, show).value {
          MatchesPrefix(tx, q, extra, show);
        }
      }
    }
  }

  /** The lunch bought for 5 that the next lemmas search for. */
  const Lunch: Tx := Tx("t1", Some(5.0), "Food", Expense, 0, "lunch")

  /** The query `"food"` finds the category `Food`, whatever the case. */
  lemma LowerCaseQueryFindsCategory(show: real -> string)
    ensures Search([Lunch], "food", show) == Some([Lunch])
  {
    assert Lower("Food") == "food";
    assert Lower("food") == "food";
    assert OccursAt(Lower(Lunch.category), Lower("food"), 0);
    assert TextMatches(Lunch, "food");
    assert !IsSpace('f');
    assert Trim("food") != "";
  }

  /** Only the blank test trims: the query `" food"` with its leading space does not find it. */
  lemma SurroundingSpacesMatter(show: real -> string)
    requires show(5.0) == "5"
    ensures Search([Lunch], " food", show) == Some([])
  {
    SpacedQueryMissesLunch(show);
    SpacedQueryNotBlank();
    assert !Throws(Lunch, " food");
    var f := Filter([Lunch], MatchFilter(" food", show));
    assert |f| <= 1;
  }

  lemma SpacedQueryNotBlank()
    ensures Trim(" food") != ""
  {
    assert !IsSpace('f');
    TrimEmptyIffBlank(" food");
  }

  lemma SpacedQueryMissesLunch(show: real -> string)
    requires show(5.0) == "5"
    ensures !Matches(Lunch, " food", show)
  {
    assert Lower(" food") == " food";
    assert Lower("Food") == "food";
    assert Lower("lunch") == "lunch";
    assert !Contains("food", " food");
    assert "lunch"[0..5][0] == 'l' && " food"[0] == ' ';
    assert !OccursAt("lunch", " food", 0);
    assert !Contains("lunch", " food");
    assert !Contains("5", " food");
  }

  /** The amount field of the edit form: the stored number until the user types, then the text typed. */
  datatype DraftAmount = Stored(n: Number) | Typed(text: string)

  /** The transaction being edited (`editingTransaction`). */
  datatype Draft = Draft(id: string, amount: DraftAmount, category: string, kind: TxType, date: int, description: string)

  /** `handleEdit(tx)`. */
  function StartEdit(tx: Tx): Draft {
    Draft(tx.id, Stored(tx.amount), tx.category, tx.kind, tx.date, tx.description)
  }

  /** `{ ...editingTransaction, amount: text }`. */
  function SetAmount(d: Draft, text: string): (r: Draft)
    ensures r.amount == Typed(text) && r == d.(amount := r.amount)
  {
    d.(amount := Typed(text))
  }

  /** `{ ...editingTransaction, description: text }`. */
  function SetDescription(d: Draft, text: string): (r: Draft)
    ensures r.description == text && r == d.(description := r.description)
  {
    d.(description := text)
  }

  /** `parseFloat(transaction.amount)` as the update writes it: a stored number is kept as it is. */
  function ReadAmount(a: DraftAmount): Number {
    match a
    case Stored(n) => n
    case Typed(text) => ParseFloat(text)
  }

  /** The transaction `updateTransaction` stores for a draft. */
  function Update(d: Draft): Tx {
    Tx(d.id, ReadAmount(d.amount), d.category, d.kind, d.date, d.description)
  }

  /** Editing only the description changes only the description. */
  lemma EditDescriptionOnly(tx: Tx, text: string)
    ensures Update(SetDescription(StartEdit(tx), text)) == tx.(description := text)
  {
  }

  /** Editing only the amount changes only the amount, to what the typed text parses to. */
  lemma EditAmountOnly(tx: Tx, text: string)
    ensures Update(SetAmount(StartEdit(tx), text)) == tx.(amount := ParseFloat(text))
  {
  }

  /** Opening the editor and saving without typing stores the transaction unchanged. */
  lemma EditNothing(tx: Tx)
    ensures Update(StartEdit(tx)) == tx
  {
  }

  /** Typing the amount as the list displays it stores the same amount back (amounts in whole cents). */
  lemma RetypeDisplayedAmount(tx: Tx, v: real)
    requires tx.amount == Some(v) && IsIntegral(v * 100.0)
    ensures Update(SetAmount(StartEdit(tx), FormatNumber(tx.amount))) == tx
  {
    FormatAmountRoundTrip(v);
  }

  /** Replacing a transaction by one of the same type and amount leaves every total unchanged. */
  lemma ReplaceKeepsTotals(txs: seq<Tx>, i: int, t: Tx, k: TxType)
    requires 0 <= i < |txs|
    requires t.amount == txs[i].amount && t.kind == txs[i].kind
    ensures TotalOf(txs[i := t], k) == TotalOf(txs, k)
  {
    var a, b := txs[..i], txs[i + 1..];
    assert txs == a + [txs[i]] + b;
    assert txs[i := t] == a + [t] + b;
    TotalOfAppend(a + [txs[i]], b, k);
    TotalOfAppend(a + [t], b, k);
    TotalOfSnoc(a, txs[i], k);
    TotalOfSnoc(a, t, k);
  }

  /** So saving a description edit leaves the income and expense totals as they were. */
  lemma DescriptionEditKeepsTotals(txs: seq<Tx>, i: int, text: string, k: TxType)
    requires 0 <= i < |txs|
    ensures TotalOf(txs[i := Update(SetDescription(StartEdit(txs[i]), text))], k) == TotalOf(txs, k)
  {
    EditDescriptionOnly(txs[i], text);
    ReplaceKeepsTotals(txs, i, Update(SetDescription(StartEdit(txs[i]), text)), k);
  }

  /** The alert `handleUpdate` shows. */
  datatype UpdateAlert = UpdateSuccess | UpdateFailed

  /** After pressing Update: the stored rows, the draft still open (if any), and the alert. */
  datatype UpdateOutcome = UpdateOutcome(rows: seq<Tx>, editing: Option<Draft>, alert: UpdateAlert)

  /** The stored rows with every row of `t`'s id written over by `t`. */
  function ReplaceById(rows: seq<Tx>, t: Tx): (r: seq<Tx>)
    ensures |r| == |rows|
    ensures forall i :: 0 <= i < |r| ==> r[i] == if rows[i].id == t.id then t else rows[i]
  {
    seq(|rows|, i requires 0 <= i < |rows| => if rows[i].id == t.id then t else rows[i])
  }

  /**
   * `handleUpdate` against the stored rows; `storeFails` is whether `updateTransaction`
   * throws. On success the row of the draft's id is written over, the editor closes and
   * the success alert shows; on failure nothing is stored, the draft stays open and the
   * `updateFailed` alert shows.
   */
  function HandleUpdate(rows: seq<Tx>, d: Draft, storeFails: bool): (o: UpdateOutcome)
    ensures storeFails ==> o == UpdateOutcome(rows, Some(d), UpdateFailed)
    ensures !storeFails ==> o.alert == UpdateSuccess && o.editing.None?
    ensures !storeFails ==> |o.rows| == |rows| && forall i :: 0 <= i < |rows| ==>
      o.rows[i] == if rows[i].id == d.id then Update(d) else rows[i]
  {
    if storeFails then UpdateOutcome(rows, Some(d), UpdateFailed)
    else UpdateOutcome(ReplaceById(rows, Update(d)), None, UpdateSuccess)
  }

  /** No two stored rows share an id (the table's key). */
  predicate DistinctIds(rows: seq<Tx>) {
    forall i, j :: 0 <= i < j < |rows| ==> rows[i].id != rows[j].id
  }

  /** A successful update of row `i` changes row `i` alone. */
  lemma UpdateTouchesOneRow(rows: seq<Tx>, i: int, d: Draft)
    requires DistinctIds(rows) && 0 <= i < |rows| && d.id == rows[i].id
    ensures HandleUpdate(rows, d, false).rows == rows[i := Update(d)]
  {
    var r := HandleUpdate(rows, d, false).rows;
    forall j | 0 <= j < |rows| ensures r[j] == rows[i := Update(d)][j] {
      if j != i {
        assert rows[j].id != rows[i].id by {
          if j < i {} else {}
        }
      }
    }
  }

  /** So a saved description edit leaves the income and expense totals of the table as they were. */
  lemma SavedDescriptionKeepsTotals(rows: seq<Tx>, i: int, text: string, k: TxType)
    requires DistinctIds(rows) && 0 <= i < |rows|
    ensures TotalOf(HandleUpdate(rows, SetDescription(StartEdit(rows[i]), text), false).rows, k) == TotalOf(rows, k)
  {
    UpdateTouchesOneRow(rows, i, SetDescription(StartEdit(rows[i]), text));
    DescriptionEditKeepsTotals(rows, i, text, k);
  }

  /**
   * Unlike the add form, the edit form saves an amount that does not parse: NaN is sent,
   * the row is stored with a `null` amount, and from then on every non-blank query that
   * row does not match by text makes the search throw, and its type's total reads as NaN
   * (`parseFloat(null)` is NaN).
   */
  lemma UnparsedAmountBreaksSearch(rows: seq<Tx>, i: int, text: string, query: string, show: real -> string)
    requires DistinctIds(rows) && 0 <= i < |rows|
    requires ParseFloat(text).None?
    requires Trim(query) != "" && !TextMatches(rows[i], query)
    ensures HandleUpdate(rows, SetAmount(StartEdit(rows[i]), text), false).rows[i] == rows[i].(amount := None)
    ensures Search(HandleUpdate(rows, SetAmount(StartEdit(rows[i]), text), false).rows, query, show).None?
    ensures TotalOf(HandleUpdate(rows, SetAmount(StartEdit(rows[i]), text), false).rows, rows[i].kind).None?
  {
    var r := HandleUpdate(rows, SetAmount(StartEdit(rows[i]), text), false).rows;
    assert r[i] == rows[i].(amount := None);
    assert Throws(r[i], query);
  }
}

=== FILE: transactions.dfy ===
/**
 * Transactions as the screens receive them from the store, and the
 * `filter(type).reduce(sum + parseFloat(amount), 0)` totals every report is built from.
 * The store keeps amounts as numbers, so `parseFloat` of a stored amount is that number.
 */
module Transactions {
  import opened Wrappers
  import opened Seqs
  import opened Numbers

  /** The `type` field: the screens test for `'Income'` and `'Expense'`; anything else is `Other`. */
  datatype TxType = Income | Expense | Other

  /**
   * One stored transaction: its amount is a number (NaN only if an edit stored one),
   * `date` its instant on the local clock.
   */
  datatype Tx = Tx(id: string, amount: Number, category: string, kind: TxType, date: int, description: string)

  /** No amount is NaN. */
  predicate NoNaN(txs: seq<Tx>) {
    forall i :: 0 <= i < |txs| ==> txs[i].amount.Some?
  }

  /** `txs.reduce((sum, t) => sum + parseFloat(t.amount), 0)`. */
  function Sum(txs: seq<Tx>): (r: Number)
    ensures r.Some? <==> NoNaN(txs)
    ensures |txs| == 0 ==> r == Some(0.0)
    decreases |txs|
  {
    if |txs| == 0 then Some(0.0)
    else
      var init := txs[..|txs| - 1];
      assert forall i :: 0 <= i < |init| ==> init[i] == txs[i];
      Plus(Sum(init), txs[|txs| - 1].amount)
  }

  /** The sum of a concatenation is the sum of the sums. */
  lemma {:induction false} SumAppend(a: seq<Tx>, b: seq<Tx>)
    ensures Sum(a + b) == Plus(Sum(a), Sum(b))
    decreases |b|
  {
    if |b| == 0 {
      assert a + b == a;
      PlusZero(Sum(a));
    } else {
      var b' := b[..|b| - 1];
      assert (a + b)[..|a + b| - 1] == a + b';
      SumAppend(a, b');
      PlusAssoc(Sum(a), Sum(b'), b[|b| - 1].amount);
    }
  }

  /** `t => t.type === k`. */
  function OfKind(k: TxType): Tx -> bool {
    (t: Tx) => t.kind == k
  }

  /** The total of the transactions of type `k`: NaN exactly when one of them does not parse. */
  function TotalOf(txs: seq<Tx>, k: TxType): (r: Number)
    ensures r.Some? <==> forall i :: 0 <= i < |txs| && txs[i].kind == k ==> txs[i].amount.Some?
  {
    var f := Filter(txs, OfKind(k));
    assert forall i :: 0 <= i < |txs| && txs[i].kind == k ==> txs[i] in f;
    Sum(f)
  }

  /** The number of transactions of type `k` (`txs.filter(t => t.type === k).length`). */
  function CountOf(txs: seq<Tx>, k: TxType): (n: nat)
    ensures n <= |txs|
    ensures n == 0 <==> forall i :: 0 <= i < |txs| ==> txs[i].kind != k
  {
    var f := Filter(txs, OfKind(k));
    assert |f| > 0 ==> f[0] in txs && f[0].kind == k;
    assert forall i :: 0 <= i < |txs| && txs[i].kind == k ==> txs[i] in f;
    |f|
  }

  /** Appending a transaction adds one to the count of its own type only. */
  lemma CountOfSnoc(txs: seq<Tx>, t: Tx, k: TxType)
    ensures CountOf(txs + [t], k) == CountOf(txs, k) + if t.kind == k then 1 else 0
  {
    FilterSnoc(txs, t, OfKind(k));
  }

  /** Appending a transaction adds its amount to the total of its own type only. */
  lemma TotalOfSnoc(txs: seq<Tx>, t: Tx, k: TxType)
    ensures TotalOf(txs + [t], k) == if t.kind == k then Plus(TotalOf(txs, k), t.amount) else TotalOf(txs, k)
  {
    FilterSnoc(txs, t, OfKind(k));
    var f := Filter(txs, OfKind(k));
    if t.kind == k {
      assert (f + [t])[..|f|] == f;
    } else {
      assert Filter(txs + [t], OfKind(k)) == f;
    }
  }

  /** The total of a concatenation is the sum of the totals. */
  lemma TotalOfAppend(a: seq<Tx>, b: seq<Tx>, k: TxType)
    ensures TotalOf(a + b, k) == Plus(TotalOf(a, k), TotalOf(b, k))
  {
    FilterAppend(a, b, OfKind(k));
    SumAppend(Filter(a, OfKind(k)), Filter(b, OfKind(k)));
  }
}

=== FILE: wrappers.dfy ===
/** Optional values: the model's stand-in for JavaScript's `null`/`NaN` results. */
module Wrappers {

  datatype Option<+T> = None | Some(value: T) {

    /** The carried value, or `default` when there is none. */
    function GetOr(default: T): T {
      match this
      case Some(v) => v
      case None => default
    }
  }
}
